=== FILE: README.md ===
# Landing-page blueprint engine: a Dafny model

The system turns a handful of campaign parameters into a landing-page
blueprint generated by an external language model. A user then revises one
section at a time by sending feedback, and may lock a section. This project
models the parts with real logic:

- **The response repair pipeline** (`cleanAndParseJSON`), in module
  `Normalizer` (text helpers in `Text`). It rejects an empty reply. It then
  tries `JSON.parse` on the reply, on the reply with trailing commas removed,
  on the first ```` ``` ```` fenced block (optionally tagged `json`), and on the slice from the first
  `{` to the last `}`. Each candidate is tried as is and then repaired, and
  the first truthy value wins. `JSON.parse` is a function parameter
  `parse: string -> Option<Json>`. `None` stands for an exception, and falsy
  values (`null`, `false`, `0`, `""`) count as failure.
- **The two clients** (`generateLandingPage`, `regenerateSection`), in module
  `GeminiService`. An empty reply becomes `"{}"`. Regeneration overwrites
  `id` with the caller's section id and sets `isLocked: false`. The
  request-configuration constants are modelled too.
- **The data types** of `types.ts`, in module `Types`. They come with a JSON
  view (`Json` in module `Json`), encoders and lenient decoders, and
  round-trip lemmas between them.
- **The app's state handlers** (`handleSubmit`, `handleUpdateSection`,
  `handleRegenerateRequest`), in module `App`. The regeneration handler is
  split at its `await`, so that other events can happen while it is in
  flight.
- **The per-section controls** of the preview, in module `BlueprintDisplay`:
  the lock toggle, the feedback button that only unlocked sections show, the
  feedback panel and its submit guard, and the loading overlay.

Two behaviours of the code are reproduced as they are, not as the schema
and the lock suggest:

- **No shape check after parsing.** Whatever `JSON.parse` returns is handed
  on, so a section without the schema's required `description` is accepted
  (`GeminiService.GenerationDoesNotValidate`,
  `GeminiService.RegenerationAcceptsMissingDescription`).
- **The merge ignores the lock.** The regenerated section replaces the
  section with the same id in the latest blueprint, whatever its lock flag.
  A lock set while the request was in flight is lost
  (`App.LockDuringFlightIsLost`).

The intent evident from the controls and the schema is that a locked section
is never overwritten by a merge, and that a reply whose content lacks a
description is rejected (the schema marks it as a hard requirement,
`geminiService.ts` lines 84-85 and 113-115). The code does neither, and the
model follows the code. The final parse error does not carry the raw reply
either: the code only logs the reply (`geminiService.ts` line 156) and throws
a fixed message, and the model follows the code.

## Model

| member | source | states |
|---|---|---|
| Text.Trim | services/geminiService.ts:142 | The result has no JavaScript whitespace at either end and is a contiguous piece of the input with only whitespace cut off around it: what the `\s*` on both sides of the fence pattern's capture leave out |
| Text.TrimAroundTrimmed | services/geminiService.ts:142 | Trimming text that is already trimmed and framed by whitespace gives that text back exactly |
| Text.FindFence | services/geminiService.ts:142 | The result is the first position at or after `from` where three backticks start, or none when no marker follows |
| Text.IndexOfChar | services/geminiService.ts:148 | `indexOf`: found exactly when the character occurs, at its first occurrence |
| Text.LastIndexOfChar | services/geminiService.ts:149 | `lastIndexOf`: found exactly when the character occurs, at its last occurrence |
| Normalizer.Sanitize | services/geminiService.ts:128-129 | Deletes exactly the commas followed by optional whitespace and `}` or `]`. The output is shorter exactly when there is such a comma, equals the input when there is none, keeps the count of every other character, and is a subsequence of the input |
| Normalizer.SanitizeMatchesReplace | services/geminiService.ts:129 | The per-character definition equals a left-to-right scan of the global regex `/,(\s*[}\]])/g` with replacement `$1` |
| Normalizer.SanitizeIsRegexReplace | services/geminiService.ts:129 | From any position, the per-character repair and the regex scan produce the same text |
| Normalizer.SanitizeNotIdempotent | services/geminiService.ts:129 | One pass over `",,}"` gives `",}"` and a second pass gives `"}"`, so the repair is not idempotent |
| Normalizer.FencedBlock | services/geminiService.ts:142-143 | A block is found exactly when the text holds two markers at least three characters apart. The capture is trimmed, and is the trimmed text from the capture start of the first marker up to the next marker at or after that start |
| Normalizer.FencedBlockUsesFirstMarkers | services/geminiService.ts:142-143 | A found capture lies between the end of the optional tag after the first marker in the text and the first marker at or after that end, with no marker before either of them |
| Normalizer.MarkersAfterOpening | services/geminiService.ts:142 | Any closing marker that can end a match lies at or after the capture start of the first marker, so the `json` tag is never inside the closing marker |
| Normalizer.FenceWrapRecoversBody | services/geminiService.ts:142-143 | For prose with no backtick followed by a ```` ```json ```` fence around a trimmed body with no marker, the fence step yields exactly the body |
| Normalizer.BraceSlice | services/geminiService.ts:148-151 | Defined exactly when both `{` and `}` occur. The result runs from the first `{` to the last `}` inclusive, and is empty when that `}` comes first |
| Normalizer.BraceSliceRecoversObject | services/geminiService.ts:148-151 | An object set in prose with no `{` before it and no `}` after it is cut out exactly |
| Normalizer.CleanAndParse | services/geminiService.ts:125-157 | Fails with "Empty response from AI" exactly on empty text. Any success is truthy. A truthy direct parse is returned as is, before any repair, and otherwise a truthy parse of the repaired text is returned |
| Normalizer.FirstTruthy | services/geminiService.ts:139-153 | The reference definition returns the parse of the first candidate that parses truthy, with no earlier candidate truthy, and returns nothing exactly when none is |
| Normalizer.CleanAndParseIsFirstTruthy | services/geminiService.ts:139-157 | On non-empty text the pipeline returns the first truthy parse among the full text, the fenced block and the brace slice, each direct and then repaired, and fails with "Invalid JSON returned by model" exactly when there is none |
| Normalizer.FenceWrapParsesLikeBody | services/geminiService.ts:139-146 | Prose plus a fenced body yields the same value as the body alone (direct or repaired), when `JSON.parse` rejects the whole reply |
| Types.ParseLayout | types.ts:30 | Accepts exactly the five layout names, each mapped to its own layout |
| Types.ParseContrast | types.ts:37 | Accepts exactly `high`, `medium` and `low` |
| Types.ParseSpacing | types.ts:38 | Accepts exactly `compact` and `generous` |
| Types.ParseTrust | types.ts:39 | Accepts exactly `subtle` and `high` |
| Types.EnumerationNamesDistinct | types.ts:4-53 | No two values of any enumeration (objective, layout, contrast, spacing, trust, feedback type, priority) share a name |
| Types.StringsRoundTrip | types.ts:21 | A list of strings survives encoding and decoding |
| Types.ContentRoundTrip | types.ts:18-25 | Section content survives encoding and decoding, with absent optional fields staying absent |
| Types.SectionRoundTrip | types.ts:27-33 | A page section, with or without its lock flag, survives encoding and decoding |
| Types.HintsRoundTrip | types.ts:35-40 | Design hints survive encoding and decoding |
| Types.SectionsRoundTrip | types.ts:45 | An ordered list of sections survives encoding and decoding, in order |
| Types.BlueprintRoundTrip | types.ts:42-46 | A blueprint survives encoding and decoding |
| Types.BlueprintWithoutDescriptionBreaksSchema | services/geminiService.ts:81-88 | A blueprint with one section lacking a description has its typed reading but breaks the blueprint schema |
| Types.DescriptionOptionalInTypeOnly | types.ts:18-20 | A section without a description fits the TypeScript type but not the schema, which requires one |
| GeminiService.RequestPolicy | services/geminiService.ts:202-257 | Both requests ask for JSON at temperature 0 with the same `topP`, and the full page gets the larger output budget |
| GeminiService.ReplyOrEmptyObject | services/geminiService.ts:212 | The text handed to the pipeline is never empty: a missing or empty reply becomes `"{}"`, and any other reply is kept |
| GeminiService.GenerateLandingPage | services/geminiService.ts:212 | Generation can only fail with "Invalid JSON returned by model", never with the empty-response error. A success is truthy and is the pipeline's result on a non-empty reply |
| GeminiService.ForceIdentity | services/geminiService.ts:261 | `{ ...parsed, id, isLocked: false }` has the caller's id and an unlocked flag, and every other key with its value comes from the spread of the parsed value |
| GeminiService.RegenerateSection | services/geminiService.ts:260-261 | Regeneration fails only with the invalid-JSON error, and succeeds exactly when the pipeline does. A success is an object whose `id` is the current section's id and whose `isLocked` is false; every other key is present exactly when the parsed value has it, with the parsed value's entry |
| GeminiService.RegeneratedSectionIdentity | services/geminiService.ts:261 | Whatever the model replies, a regenerated value read as a section has the caller's id and is unlocked |
| GeminiService.ForcedSectionKeepsContent | services/geminiService.ts:261 | Forcing changes only `id` and `isLocked`: type, layout and content come through from the model |
| GeminiService.EmptyReplyRegeneratesIdentityOnly | services/geminiService.ts:260-261 | An empty or missing reply parses as `{}`, and regenerates to an object holding only `id` and `isLocked` |
| GeminiService.GenerationDoesNotValidate | services/geminiService.ts:212 | Any blueprint the model sends is returned as is, including one that breaks the schema |
| GeminiService.RegenerationAcceptsMissingDescription | services/geminiService.ts:260-261 | A regenerated section without a description is accepted and reaches the caller with the caller's id, unlocked, still breaking the schema |
| App.SubmitStart | App.tsx:17-19 | While generating, the page shows the spinner, no error and no blueprint, and the form input is kept |
| App.SubmitFinish | App.tsx:21-29 | A settled generation stores the blueprint on success, or the fixed message on failure. The spinner goes off in both cases |
| App.HandleSubmit | App.tsx:16-30 | Afterwards exactly one of blueprint and error is set. The blueprint is what the service returned and the error is "Failed to generate blueprint. Please check your inputs." |
| App.SubmitForgetsPreviousResult | App.tsx:18-19 | The outcome of a generation does not depend on the blueprint or error shown before it |
| App.ReplaceById | App.tsx:34-36 | The merge keeps the length and order of the sections, replaces exactly the sections with the key, and leaves every other section unchanged |
| App.ReplaceByIdNoMatch | App.tsx:34-36 | With no section of that id, the sections are unchanged |
| App.ReplaceByIdKeepsIds | App.tsx:34-36 | A replacement that carries the key keeps the page's sequence of ids |
| App.ReplaceByIdIdempotent | App.tsx:34-36 | Merging the same section twice is the same as merging it once |
| App.ReplaceByIdLastWins | App.tsx:34-36 | A later merge under the same key overrides an earlier one that kept the key |
| App.HandleUpdateSection | App.tsx:32-38 | Without a blueprint nothing changes. Otherwise the sections with the updated section's id are replaced, and the intent, the design hints and every other section and field stay as they were |
| App.UpdateKeepsIds | App.tsx:32-38 | An update never adds, drops or reorders sections |
| App.FindSection | App.tsx:47 | `find`: found exactly when a section has the id, and then it is the first such section |
| App.RegenerateBegin | App.tsx:41-48 | Without a blueprint nothing happens. Otherwise the spinner is set to the section id, and the lookup reports the section as missing exactly when no section has that id; a found section is the first with that id, as `find` returns |
| App.ApplyRegenerated | App.tsx:53-58 | The updater keeps a missing blueprint missing. It replaces every section of the requested id in the latest blueprint, whatever its lock flag, and keeps everything else |
| App.RegenerateComplete | App.tsx:50-65 | After the `await` the spinner is always cleared, even when it meanwhile belongs to another section. A failure leaves the blueprint as it is, and a success merges into the latest blueprint |
| App.HandleRegenerateRequest | App.tsx:40-66 | Without a blueprint nothing changes. Otherwise the spinner ends cleared, and an unknown id leaves the blueprint untouched. When the id is found, a failed call leaves the blueprint unchanged and a successful one puts the service's section, computed from the first section of that id, in place of every section with the id and leaves the others alone. Intent, hints and section count are kept, and nothing outside the blueprint and spinner changes |
| App.RegenerationTouchesOnlyTarget | App.tsx:57 | Sections with another id are unchanged by a regeneration |
| App.RegenerationKeepsIds | App.tsx:53-58 | When the service forces the requested id onto its result, a regeneration keeps the page's sequence of ids |
| App.RegenerateTyped | services/geminiService.ts:259-262 | One call of the app's service: a success is the typed reading of what `regenerateSection` returned, carrying the caller's id and an explicit unlock; the only failure is the invalid-JSON error |
| App.TypedRegeneration | App.tsx:50 | The service the app awaits answers every section with a section of the same id that is unlocked, and fails only with the invalid-JSON error |
| App.TypedRegenerationKeepsIds | App.tsx:50-58 | With the service built from `regenerateSection` and a typed reading of its result, any replies keep the page's sequence of ids across a regeneration |
| App.NothingToChangeInitially | App.tsx:10-14 | The page starts with no blueprint, spinner or error, and an update or a regeneration before the first generation changes nothing |
| App.LockDuringFlightIsLost | App.tsx:53-58 | Lock a section while its regeneration is in flight: it is locked after the toggle and unlocked once the forced result is merged |
| BlueprintDisplay.ToggleLock | components/BlueprintDisplay.tsx:107-109 | The lock state flips by truthiness, the flag becomes present, and nothing else in the section changes |
| BlueprintDisplay.ToggleLockTwice | components/BlueprintDisplay.tsx:107-109 | Two toggles restore the lock state, and restore the section itself exactly when its flag was present |
| BlueprintDisplay.Overlays | components/BlueprintDisplay.tsx:72 | A section shows the loading overlay exactly when its id is the one being regenerated |
| BlueprintDisplay.AtMostOneOverlay | components/BlueprintDisplay.tsx:66-72 | With distinct ids at most one section shows the overlay, and none does while nothing is being regenerated |
| BlueprintDisplay.SubmitFeedback | components/BlueprintDisplay.tsx:111-121 | Nothing is sent exactly when the comment is empty and the type is not `lock`. Otherwise the feedback carries the section's id, the type, the comment and priority high, and the panel closes with the comment cleared |
| BlueprintDisplay.Step | components/BlueprintDisplay.tsx:107-188 | The lock button always emits the toggled section and leaves the panel alone. The feedback button on an unlocked section only flips the panel; typing only sets the comment and Cancel only closes the panel, both on an open panel. Update on an open panel does what `handleSubmitFeedback` does, sending its request exactly when it yields one. Every other event (a hidden button, a closed panel) changes nothing and emits nothing. The feedback type never changes |
| BlueprintDisplay.Run | components/BlueprintDisplay.tsx:66-71 | Over any sequence of events the section keeps its id and content, and there is one effect per event |
| BlueprintDisplay.FeedbackTypeNeverChanges | components/BlueprintDisplay.tsx:104-105 | No sequence of events changes the feedback type from its initial `copy_edit` |
| BlueprintDisplay.RequestsCarryComment | components/BlueprintDisplay.tsx:112-117 | With any type but `lock` (so from the initial panel), every request names the section and carries a non-empty comment |
| BlueprintDisplay.GatedRunNeverRequestsWhileLocked | components/BlueprintDisplay.tsx:153-160 | With the panel gated like the button, no sequence of events sends a request while the section is locked |
| BlueprintDisplay.UnlockedSectionRequests | components/BlueprintDisplay.tsx:111-121 | On an unlocked section, opening the panel, typing any non-empty comment and pressing Update sends that comment for the section with high priority, and leaves the panel closed and cleared |
| BlueprintDisplay.LockedSectionStillRequests | components/BlueprintDisplay.tsx:164-188 | As written: open the panel, type any non-empty comment, lock, press Update, and a request with that comment for the locked section goes out |

## Left out

- The network calls to the model, the model names and the prompt text. Each client starts from the reply text. Generation's prompt leaves out keywords, platform and brand constraints, and regeneration ignores its `context` argument; neither affects the model.
- The API-key check at module load: startup configuration, not per-call logic.
- The internals of `JSON.parse`: a parameter. Every property about repaired or fenced text is stated relative to what that parameter returns.
- Async scheduling and React state batching. Regeneration is split at its `await`, and every state update applies to the latest state, as the functional updater does.
- Rendering, CSS and the input form (`components/InputForm.tsx`), whose only logic is a generic field setter. That the loading overlay covers the controls is a CSS stacking effect; `BlueprintDisplay.Step` lets every event through.
- `console.error` logging, including the raw reply logged before the final parse error.
- Values the model returns that fit no TypeScript type. The app state is typed, so it cannot hold them; the decoders in `Types` show which values have a typed view.
- App.RegenerateTyped: a regenerated value with no typed reading is a failure here, for the reason given in the next line.
- App.TypedRegeneration: a regenerated value with no typed reading as a section counts as a failed call, so the blueprint is kept, while the code merges the spread object whatever its shape (`geminiService.ts` line 261, `App.tsx` line 57). The id is forced in both cases, so `App.TypedRegenerationKeepsIds` holds of the code too.
- JavaScript numbers are modelled as unbounded reals. `JSON.parse` can produce `-0` (from `"-0"`), and it rounds decimal literals to doubles, so that `1e-400` becomes 0. Both are falsy like 0, so no branch changes; the rounding and underflow are left to the `parse` parameter. `NaN` does not arise from `JSON.parse`.
- Strings are sequences of code points, not of UTF-16 code units. This shows only in the index keys that `Spread` gives a string value with characters outside the Basic Multilingual Plane.
- The order of object keys: objects are maps from key to value.
- The text of the errors the parser throws: the app shows its own fixed message instead, so only the kind of error is modelled.

## Findings

| source | as written | input that shows it | evidently intended | confidence | as-written member | corrected member |
|---|---|---|---|---|---|---|
| components/BlueprintDisplay.tsx:164 | The feedback panel renders on `showFeedback` alone; only the button that opens it is hidden for a locked section (lines 153-160) | On an unlocked section: open the panel, type "shorter", click the lock, click Update. A copy-edit request with comment "shorter" leaves for the now-locked section, and the merge then unlocks it | A locked section cannot request regeneration: the panel is gated by the lock like the button | medium; not executed | BlueprintDisplay.LockedSectionStillRequests | BlueprintDisplay.GatedRunNeverRequestsWhileLocked |

=== FILE: app.dfy ===
/** The application state and its three handlers: generate a blueprint,
    replace a section the user edited, and regenerate one section. Awaited
    service calls are parameters: a handler receives what the call settled
    to, and a regeneration is split at its `await` so that other events can
    happen in between. */
module App {
  import opened Wrappers
  import opened Types
  import Json
  import Normalizer
  import GeminiService
  import BlueprintDisplay

  datatype AppState = AppState(
    input: LandingPageInput,
    blueprint: Option<LandingPageBlueprint>,
    loading: bool,
    regeneratingId: Option<string>,
    error: Option<string>)

  const InitialState := AppState(InitialInput, None, false, None, None)

  const GenerationFailedMessage := "Failed to generate blueprint. Please check your inputs."

  /* ---------- generation ---------- */

  /** What the page shows while a generation is pending: the spinner, no
      error and no blueprint. */
  function SubmitStart(st: AppState): (r: AppState)
    ensures r.loading && r.error.None? && r.blueprint.None?
    ensures r.input == st.input && r.regeneratingId == st.regeneratingId
  {
    st.(loading := true, error := None, blueprint := None)
  }

  /** The settled generation: the blueprint on success, the fixed message on
      any failure, and the spinner off either way. */
  function SubmitFinish<E>(st: AppState, outcome: Result<LandingPageBlueprint, E>): (r: AppState)
    ensures !r.loading
    ensures outcome.Success? ==> r.blueprint == Some(outcome.value) && r.error == st.error
    ensures outcome.Failure? ==> r.error == Some(GenerationFailedMessage) && r.blueprint == st.blueprint
    ensures r.input == st.input && r.regeneratingId == st.regeneratingId
  {
    match outcome
    case Success(b) => st.(blueprint := Some(b), loading := false)
    case Failure(_) => st.(error := Some(GenerationFailedMessage), loading := false)
  }

  /** `handleSubmit`: exactly one of blueprint and error is set afterwards,
      the blueprint being what the service gave and the error the fixed
      message. */
  function HandleSubmit<E>(st: AppState, outcome: Result<LandingPageBlueprint, E>): (r: AppState)
    ensures !r.loading
    ensures r.blueprint.Some? <==> outcome.Success?
    ensures r.error.Some? <==> outcome.Failure?
    ensures outcome.Success? ==> r.blueprint.value == outcome.value
    ensures outcome.Failure? ==> r.error.value == GenerationFailedMessage
    ensures r.input == st.input && r.regeneratingId == st.regeneratingId
  {
    SubmitFinish(SubmitStart(st), outcome)
  }

  /** A failed generation does not leave the previous blueprint or error on
      screen: the result depends on the form and the outcome alone. */
  lemma SubmitForgetsPreviousResult<E>(st1: AppState, st2: AppState, outcome: Result<LandingPageBlueprint, E>)
    requires st1.input == st2.input && st1.regeneratingId == st2.regeneratingId
    ensures HandleSubmit(st1, outcome) == HandleSubmit(st2, outcome)
  {
  }

  /* ---------- merging by id ---------- */

  /** `sections.map(s => s.id === id ? replacement : s)`. */
  function ReplaceById(sections: seq<PageSection>, id: string, replacement: PageSection): (r: seq<PageSection>)
    ensures |r| == |sections|
    ensures forall i :: 0 <= i < |r| ==> r[i] == (if sections[i].id == id then replacement else sections[i])
  {
    if sections == [] then []
    else [if sections[0].id == id then replacement else sections[0]] + ReplaceById(sections[1..], id, replacement)
  }

  function Ids(sections: seq<PageSection>): seq<string> {
    seq(|sections|, i requires 0 <= i < |sections| => sections[i].id)
  }

  predicate HasId(sections: seq<PageSection>, id: string) {
    exists i :: 0 <= i < |sections| && sections[i].id == id
  }

  /** With no section of that id, nothing changes. */
  lemma ReplaceByIdNoMatch(sections: seq<PageSection>, id: string, replacement: PageSection)
    requires !HasId(sections, id)
    ensures ReplaceById(sections, id, replacement) == sections
  {
    var r := ReplaceById(sections, id, replacement);
    forall i | 0 <= i < |sections|
      ensures r[i] == sections[i]
    {
      assert sections[i].id != id;
    }
  }

  /** A replacement that carries the key keeps the sequence of ids. */
  lemma ReplaceByIdKeepsIds(sections: seq<PageSection>, id: string, replacement: PageSection)
    requires replacement.id == id
    ensures Ids(ReplaceById(sections, id, replacement)) == Ids(sections)
  {
  }

  /** Replacing twice with the same section is replacing once, whatever id
      the replacement carries. */
  lemma ReplaceByIdIdempotent(sections: seq<PageSection>, id: string, replacement: PageSection)
    ensures ReplaceById(ReplaceById(sections, id, replacement), id, replacement) == ReplaceById(sections, id, replacement)
  {
  }

  /** A later replacement under the same key wins over an earlier one that
      kept the key. */
  lemma ReplaceByIdLastWins(sections: seq<PageSection>, id: string, first: PageSection, second: PageSection)
    requires first.id == id
    ensures ReplaceById(ReplaceById(sections, id, first), id, second) == ReplaceById(sections, id, second)
  {
  }

  /* ---------- updating one section ---------- */

  /** `handleUpdateSection`: every section with the updated section's id is
      replaced by it; nothing happens without a blueprint. */
  function HandleUpdateSection(st: AppState, updated: PageSection): (r: AppState)
    ensures st.blueprint.None? ==> r == st
    ensures r.(blueprint := st.blueprint) == st
    ensures st.blueprint.Some? ==> (r.blueprint.Some? &&
      r.blueprint.value.primaryIntent == st.blueprint.value.primaryIntent &&
      r.blueprint.value.designHints == st.blueprint.value.designHints)
    ensures st.blueprint.Some? ==> |r.blueprint.value.sections| == |st.blueprint.value.sections|
    ensures st.blueprint.Some? ==> forall i :: 0 <= i < |st.blueprint.value.sections| ==>
      r.blueprint.value.sections[i] == (if st.blueprint.value.sections[i].id == updated.id then updated else st.blueprint.value.sections[i])
  {
    match st.blueprint
    case None => st
    case Some(b) => st.(blueprint := Some(b.(sections := ReplaceById(b.sections, updated.id, updated))))
  }

  /** An update never adds, drops or reorders sections. */
  lemma UpdateKeepsIds(st: AppState, updated: PageSection)
    requires st.blueprint.Some?
    ensures Ids(HandleUpdateSection(st, updated).blueprint.value.sections) == Ids(st.blueprint.value.sections)
  {
    ReplaceByIdKeepsIds(st.blueprint.value.sections, updated.id, updated);
  }

  /* ---------- regenerating one section ---------- */

  /** `sections.find(s => s.id === id)`: the first section with that id. */
  function FindSection(sections: seq<PageSection>, id: string): (r: Option<PageSection>)
    ensures r.None? <==> !HasId(sections, id)
    ensures r.Some? ==> exists i :: (0 <= i < |sections| && sections[i] == r.value && r.value.id == id &&
      forall j :: 0 <= j < i ==> sections[j].id != id)
  {
    if sections == [] then None
    else if sections[0].id == id then Some(sections[0])
    else
      FirstIdInTail(sections, id);
      FindSection(sections[1..], id)
  }

  /** Past a first section of another id, the first section with the id is
      the first one in the tail. */
  lemma FirstIdInTail(sections: seq<PageSection>, id: string)
    requires |sections| > 0 && sections[0].id != id
    ensures HasId(sections, id) <==> HasId(sections[1..], id)
  {
    if HasId(sections, id) {
      var i :| 0 <= i < |sections| && sections[i].id == id;
      assert sections[1..][i - 1] == sections[i];
    }
    if HasId(sections[1..], id) {
      var i :| 0 <= i < |sections[1..]| && sections[1..][i].id == id;
      assert sections[i + 1] == sections[1..][i];
    }
  }

  /** Where a regeneration stands once its handler has read the blueprint:
      nothing to do, a section that is not there, or a request for the
      section found. */
  datatype Request = Idle | Missing | Ask(current: PageSection)

  /** The part of `handleRegenerateRequest` before the `await`: without a
      blueprint nothing happens; otherwise the section's spinner goes on and
      the section is looked up in the blueprint of that moment. */
  function RegenerateBegin(st: AppState, sectionId: string): (r: (AppState, Request))
    ensures st.blueprint.None? ==> r == (st, Idle)
    ensures st.blueprint.Some? ==> r.0 == st.(regeneratingId := Some(sectionId)) && !r.1.Idle?
    ensures st.blueprint.Some? ==> (r.1.Missing? <==> !HasId(st.blueprint.value.sections, sectionId))
    ensures r.1.Ask? ==> r.1.current.id == sectionId && r.1.current in st.blueprint.value.sections
    ensures st.blueprint.Some? ==> (r.1.Ask? <==> FindSection(st.blueprint.value.sections, sectionId).Some?)
    ensures r.1.Ask? ==> Some(r.1.current) == FindSection(st.blueprint.value.sections, sectionId)
  {
    match st.blueprint
    case None => (st, Idle)
    case Some(b) =>
      var started := st.(regeneratingId := Some(sectionId));
      match FindSection(b.sections, sectionId)
      case None => (started, Missing)
      case Some(current) => (started, Ask(current))
  }

  /** The state updater `prev => ...`: the regenerated section replaces every
      section of the requested id in the LATEST blueprint, whatever their
      lock flags; a blueprint that has meanwhile gone stays gone. */
  function ApplyRegenerated(prev: Option<LandingPageBlueprint>, sectionId: string, newSection: PageSection): (r: Option<LandingPageBlueprint>)
    ensures r.Some? <==> prev.Some?
    ensures r.Some? ==> r.value.primaryIntent == prev.value.primaryIntent && r.value.designHints == prev.value.designHints
    ensures r.Some? ==> |r.value.sections| == |prev.value.sections|
    ensures r.Some? ==> forall i :: 0 <= i < |prev.value.sections| ==>
      r.value.sections[i] == (if prev.value.sections[i].id == sectionId then newSection else prev.value.sections[i])
  {
    match prev
    case None => None
    case Some(b) => Some(b.(sections := ReplaceById(b.sections, sectionId, newSection)))
  }

  /** The part after the `await`: a settled success is merged, a failure
      only logged, and the spinner goes off in both cases, even when it
      meanwhile belongs to another section. */
  function RegenerateComplete<E>(st: AppState, sectionId: string, outcome: Result<PageSection, E>): (r: AppState)
    ensures r.regeneratingId.None?
    ensures r.(blueprint := st.blueprint, regeneratingId := st.regeneratingId) == st
    ensures outcome.Failure? ==> r.blueprint == st.blueprint
    ensures outcome.Success? ==> r.blueprint == ApplyRegenerated(st.blueprint, sectionId, outcome.value)
  {
    match outcome
    case Success(s) => st.(blueprint := ApplyRegenerated(st.blueprint, sectionId, s), regeneratingId := None)
    case Failure(_) => st.(regeneratingId := None)
  }

  /** `handleRegenerateRequest` with nothing happening during the `await`. */
  function HandleRegenerateRequest<E>(st: AppState, sectionId: string, feedback: Feedback,
                                      service: (PageSection, Feedback) -> Result<PageSection, E>): (r: AppState)
    ensures st.blueprint.None? ==> r == st
    ensures st.blueprint.Some? ==> r.regeneratingId.None? && r.blueprint.Some?
    ensures r.input == st.input && r.loading == st.loading && r.error == st.error
    ensures st.blueprint.Some? && !HasId(st.blueprint.value.sections, sectionId) ==> r.blueprint == st.blueprint
    ensures st.blueprint.Some? ==> (r.blueprint.value.primaryIntent == st.blueprint.value.primaryIntent &&
      r.blueprint.value.designHints == st.blueprint.value.designHints &&
      |r.blueprint.value.sections| == |st.blueprint.value.sections|)
    ensures (st.blueprint.Some? && FindSection(st.blueprint.value.sections, sectionId).Some? &&
      service(FindSection(st.blueprint.value.sections, sectionId).value, feedback).Failure?) ==>
      r.blueprint == st.blueprint
    ensures (st.blueprint.Some? && FindSection(st.blueprint.value.sections, sectionId).Some? &&
      service(FindSection(st.blueprint.value.sections, sectionId).value, feedback).Success?) ==>
      forall i :: 0 <= i < |st.blueprint.value.sections| ==>
        r.blueprint.value.sections[i] == (if st.blueprint.value.sections[i].id == sectionId
          then service(FindSection(st.blueprint.value.sections, sectionId).value, feedback).value
          else st.blueprint.value.sections[i])
  {
    var (started, request) := RegenerateBegin(st, sectionId);
    match request
    case Idle => started
    case Missing => started.(regeneratingId := None)
    case Ask(current) => RegenerateComplete(started, sectionId, service(current, feedback))
  }

  /** Only sections of the requested id can change. */
  lemma RegenerationTouchesOnlyTarget<E>(st: AppState, sectionId: string, feedback: Feedback,
                                         service: (PageSection, Feedback) -> Result<PageSection, E>, i: nat)
    requires st.blueprint.Some? && i < |st.blueprint.value.sections|
    requires st.blueprint.value.sections[i].id != sectionId
    ensures HandleRegenerateRequest(st, sectionId, feedback, service).blueprint.value.sections[i] == st.blueprint.value.sections[i]
  {
  }

  /** Since the service forces the requested section's id onto its result,
      a regeneration keeps the page's sequence of ids. */
  lemma RegenerationKeepsIds<E>(st: AppState, sectionId: string, feedback: Feedback,
                                service: (PageSection, Feedback) -> Result<PageSection, E>)
    requires st.blueprint.Some?
    requires forall s :: service(s, feedback).Success? ==> service(s, feedback).value.id == s.id
    ensures Ids(HandleRegenerateRequest(st, sectionId, feedback, service).blueprint.value.sections) == Ids(st.blueprint.value.sections)
  {
    var (started, request) := RegenerateBegin(st, sectionId);
    if request.Ask? {
      var outcome := service(request.current, feedback);
      if outcome.Success? {
        ReplaceByIdKeepsIds(st.blueprint.value.sections, sectionId, outcome.value);
      }
    }
  }

  /** One call of the service the app awaits, built from the client: the
      reply is repaired, its identity forced, and the result read as a
      section. A value with no typed reading counts as a failure here, since
      the typed state cannot hold it. */
  function RegenerateTyped(parse: string -> Option<Json.Json>, current: PageSection, reply: Option<string>):
    (r: Result<PageSection, Normalizer.ParseError>)
    ensures r.Success? ==> r.value.id == current.id && r.value.isLocked == Some(false)
    ensures r.Success? ==> (GeminiService.RegenerateSection(parse, current, reply).Success? &&
      SectionFromJson(GeminiService.RegenerateSection(parse, current, reply).value) == Some(r.value))
    ensures r.Failure? ==> r.error == Normalizer.InvalidJson
  {
    match GeminiService.RegenerateSection(parse, current, reply)
    case Failure(e) => Failure(e)
    case Success(j) =>
      match SectionFromJson(j)
      case None => Failure(Normalizer.InvalidJson)
      case Some(s) =>
        GeminiService.RegeneratedSectionIdentity(parse, current, reply, s);
        Success(s)
  }

  /** The service the app awaits, answering each section and feedback with
      the reply `reply` gives for them. */
  function TypedRegeneration(parse: string -> Option<Json.Json>, reply: (PageSection, Feedback) -> Option<string>):
    (service: (PageSection, Feedback) -> Result<PageSection, Normalizer.ParseError>)
    ensures forall s, f :: service(s, f).Success? ==> service(s, f).value.id == s.id && !IsLocked(service(s, f).value)
    ensures forall s, f :: service(s, f).Failure? ==> service(s, f).error == Normalizer.InvalidJson
  {
    var service := (s: PageSection, f: Feedback) => RegenerateTyped(parse, s, reply(s, f));
    assert forall s, f :: service(s, f) == RegenerateTyped(parse, s, reply(s, f));
    service
  }

  /** With the client's own service, whatever the model replies, a
      regeneration keeps the page's sequence of ids. */
  lemma TypedRegenerationKeepsIds(st: AppState, sectionId: string, feedback: Feedback,
                                  parse: string -> Option<Json.Json>, reply: (PageSection, Feedback) -> Option<string>)
    requires st.blueprint.Some?
    ensures Ids(HandleRegenerateRequest(st, sectionId, feedback, TypedRegeneration(parse, reply)).blueprint.value.sections) ==
      Ids(st.blueprint.value.sections)
  {
    var service := TypedRegeneration(parse, reply);
    RegenerationKeepsIds(st, sectionId, feedback, service);
  }

  /** The page starts with no blueprint, no spinner and no error, so editing
      or regenerating a section before the first generation changes nothing. */
  lemma NothingToChangeInitially<E>(s: PageSection, sectionId: string, feedback: Feedback,
                                    service: (PageSection, Feedback) -> Result<PageSection, E>)
    ensures InitialState.blueprint.None? && !InitialState.loading
    ensures InitialState.regeneratingId.None? && InitialState.error.None?
    ensures HandleUpdateSection(InitialState, s) == InitialState
    ensures HandleRegenerateRequest(InitialState, sectionId, feedback, service) == InitialState
  {
  }

  /** A lock placed while a regeneration is in flight does not survive it:
      the section is locked after the user's toggle and unlocked once the
      forced result is merged. */
  lemma LockDuringFlightIsLost<E>(st: AppState, i: nat, newSection: PageSection)
    requires st.blueprint.Some? && i < |st.blueprint.value.sections|
    requires !IsLocked(st.blueprint.value.sections[i])
    requires newSection.id == st.blueprint.value.sections[i].id && newSection.isLocked == Some(false)
    ensures var id := st.blueprint.value.sections[i].id;
      var started := RegenerateBegin(st, id).0;
      var locked := HandleUpdateSection(started, BlueprintDisplay.ToggleLock(st.blueprint.value.sections[i]));
      var settled := RegenerateComplete<E>(locked, id, Success(newSection));
      IsLocked(locked.blueprint.value.sections[i]) && !IsLocked(settled.blueprint.value.sections[i])
  {
  }
}

=== FILE: blueprint_display.dfy ===
/** The per-section controls of the blueprint preview: the lock toggle, the
    feedback button that only unlocked sections show, the feedback panel and
    its submit guard, and the loading overlay. Rendering is left out; what
    remains is which events a section reacts to and what it hands to the app. */
module BlueprintDisplay {
  import opened Wrappers
  import opened Types

  /* ---------- lock toggle ---------- */

  /** `{ ...section, isLocked: !section.isLocked }`: the flag becomes the
      negation of its truthiness, so an absent flag becomes an explicit lock. */
  function ToggleLock(s: PageSection): (r: PageSection)
    ensures IsLocked(r) <==> !IsLocked(s)
    ensures r.isLocked.Some?
    ensures r.(isLocked := s.isLocked) == s
  {
    s.(isLocked := Some(!IsLocked(s)))
  }

  /** Toggling twice restores the lock state, and restores the section
      itself exactly when its flag was present to begin with. */
  lemma ToggleLockTwice(s: PageSection)
    ensures IsLocked(ToggleLock(ToggleLock(s))) == IsLocked(s)
    ensures ToggleLock(ToggleLock(s)) == s <==> s.isLocked.Some?
  {
    var t := ToggleLock(ToggleLock(s));
    if s.isLocked.None? {
      assert t.isLocked != s.isLocked;
    } else {
      assert ToggleLock(s).isLocked == Some(!s.isLocked.value);
      assert t.isLocked == s.isLocked;
      assert t == t.(isLocked := s.isLocked);
    }
  }

  /* ---------- what is shown ---------- */

  /** The feedback button is rendered only for a section that is not locked. */
  predicate FeedbackButtonShown(s: PageSection) {
    !IsLocked(s)
  }

  /** The overlay of the section whose id the app is regenerating. */
  predicate LoadingOverlayShown(s: PageSection, regenerating: Option<string>) {
    regenerating == Some(s.id)
  }

  /** The overlay flags of a whole page, one per section, in order. */
  function Overlays(sections: seq<PageSection>, regenerating: Option<string>): (r: seq<bool>)
    ensures |r| == |sections|
    ensures forall i :: 0 <= i < |r| ==> (r[i] <==> regenerating.Some? && sections[i].id == regenerating.value)
  {
    seq(|sections|, i requires 0 <= i < |sections| => LoadingOverlayShown(sections[i], regenerating))
  }

  /** With distinct ids at most one section shows the overlay, and none does
      while nothing is being regenerated. */
  lemma AtMostOneOverlay(sections: seq<PageSection>, regenerating: Option<string>, i: nat, j: nat)
    requires forall a, b :: 0 <= a < |sections| && 0 <= b < |sections| && a != b ==> sections[a].id != sections[b].id
    requires i < |sections| && j < |sections|
    ensures Overlays(sections, regenerating)[i] && Overlays(sections, regenerating)[j] ==> i == j
    ensures regenerating.None? ==> !Overlays(sections, regenerating)[i]
  {
  }

  /* ---------- the feedback panel ---------- */

  /** The component state of one section renderer. The feedback type starts
      as copy edit and no control ever changes it. */
  datatype Panel = Panel(showFeedback: bool, comment: string, feedbackType: FeedbackType)

  const InitialPanel := Panel(false, "", CopyEdit)

  /** `handleSubmitFeedback`: an empty comment sends nothing unless the type is
      `lock`; otherwise the feedback goes out with high priority, the panel
      closes and the comment is cleared. */
  function SubmitFeedback(section: PageSection, panel: Panel): (r: (Option<Feedback>, Panel))
    ensures r.0.None? <==> panel.comment == "" && panel.feedbackType != Lock
    ensures r.0.None? ==> r.1 == panel
    ensures r.0.Some? ==> r.0.value.sectionId == section.id && r.0.value.priority == High
    ensures r.0.Some? ==> r.0.value.feedbackType == panel.feedbackType && r.0.value.comment == Some(panel.comment)
    ensures r.0.Some? ==> r.1 == Panel(false, "", panel.feedbackType)
  {
    if panel.comment == "" && panel.feedbackType != Lock then (None, panel)
    else (Some(Feedback(section.id, panel.feedbackType, Some(panel.comment), High)), panel.(showFeedback := false, comment := ""))
  }

  /* ---------- events ---------- */

  datatype UiEvent = ClickLock | ClickFeedbackButton | EditComment(text: string) | ClickCancel | ClickUpdate

  /** What a section hands to the app: a replaced section (`onUpdate`) or a
      regeneration request for its own id (`onRegenerate`). */
  datatype Effect = NoEffect | UpdateSection(section: PageSection) | RegenerateRequest(sectionId: string, feedback: Feedback)

  /** An effect together with whether the section was locked when it left. */
  datatype Emitted = Emitted(effect: Effect, whileLocked: bool)

  /** Whether the panel is on screen. As written it shows on `showFeedback`
      alone (`gated` false); the corrected renderer also hides it for a
      locked section, the same gate the button has (`gated` true). */
  predicate PanelOpen(section: PageSection, panel: Panel, gated: bool) {
    panel.showFeedback && (!gated || !IsLocked(section))
  }

  /** One click or keystroke on one section. Controls that are not rendered
      cannot be used, so their events change nothing. */
  function Step(section: PageSection, panel: Panel, e: UiEvent, gated: bool): (r: (Panel, Effect))
    ensures r.1.UpdateSection? ==> e == ClickLock && r.1.section == ToggleLock(section)
    ensures r.1.RegenerateRequest? ==> e == ClickUpdate && PanelOpen(section, panel, gated)
    ensures r.1.RegenerateRequest? ==> r.1.sectionId == section.id == r.1.feedback.sectionId
    ensures r.0.feedbackType == panel.feedbackType
    ensures !FeedbackButtonShown(section) && !PanelOpen(section, panel, gated) ==> r.0 == panel
    ensures e == ClickLock ==> r == (panel, UpdateSection(ToggleLock(section)))
    ensures e == ClickFeedbackButton && FeedbackButtonShown(section) ==> r == (panel.(showFeedback := !panel.showFeedback), NoEffect)
    ensures e.EditComment? && PanelOpen(section, panel, gated) ==> r == (panel.(comment := e.text), NoEffect)
    ensures e == ClickCancel && PanelOpen(section, panel, gated) ==> r == (panel.(showFeedback := false), NoEffect)
    ensures ((e == ClickFeedbackButton && !FeedbackButtonShown(section)) ||
      (!e.ClickLock? && !e.ClickFeedbackButton? && !PanelOpen(section, panel, gated))) ==> r == (panel, NoEffect)
    ensures e == ClickUpdate && PanelOpen(section, panel, gated) ==>
      r.0 == SubmitFeedback(section, panel).1 &&
      (r.1.RegenerateRequest? <==> SubmitFeedback(section, panel).0.Some?) &&
      (r.1.RegenerateRequest? ==> r.1.feedback == SubmitFeedback(section, panel).0.value)
  {
    match e
    case ClickLock => (panel, UpdateSection(ToggleLock(section)))
    case ClickFeedbackButton =>
      if FeedbackButtonShown(section) then (panel.(showFeedback := !panel.showFeedback), NoEffect) else (panel, NoEffect)
    case EditComment(t) =>
      if PanelOpen(section, panel, gated) then (panel.(comment := t), NoEffect) else (panel, NoEffect)
    case ClickCancel =>
      if PanelOpen(section, panel, gated) then (panel.(showFeedback := false), NoEffect) else (panel, NoEffect)
    case ClickUpdate =>
      if PanelOpen(section, panel, gated) then
        var (fb, p) := SubmitFeedback(section, panel);
        (p, if fb.Some? then RegenerateRequest(section.id, fb.value) else NoEffect)
      else (panel, NoEffect)
  }

  /** A sequence of events on one section. The app applies each update at
      once (the section keeps its id, so React keeps the component and its
      panel state), so the next event sees the toggled section. */
  function Run(section: PageSection, panel: Panel, events: seq<UiEvent>, gated: bool): (r: (PageSection, Panel, seq<Emitted>))
    ensures |r.2| == |events|
    ensures r.0.id == section.id && r.0.content == section.content
    decreases |events|
  {
    if events == [] then (section, panel, [])
    else
      var (p, eff) := Step(section, panel, events[0], gated);
      var next := if eff.UpdateSection? then eff.section else section;
      var (s2, p2, out) := Run(next, p, events[1..], gated);
      (s2, p2, [Emitted(eff, IsLocked(section))] + out)
  }

  /** No event changes the feedback type. */
  lemma {:induction false} FeedbackTypeNeverChanges(section: PageSection, panel: Panel, events: seq<UiEvent>, gated: bool)
    ensures Run(section, panel, events, gated).1.feedbackType == panel.feedbackType
    decreases |events|
  {
    if events != [] {
      var (p, eff) := Step(section, panel, events[0], gated);
      var next := if eff.UpdateSection? then eff.section else section;
      FeedbackTypeNeverChanges(next, p, events[1..], gated);
    }
  }

  /** Every request a section sends names that section and carries a
      non-empty comment, as long as the type is not `lock`; from the initial
      panel, whose type is copy edit and stays so, that is every request. */
  lemma {:induction false} RequestsCarryComment(section: PageSection, panel: Panel, events: seq<UiEvent>, gated: bool)
    requires panel.feedbackType != Lock
    ensures forall k :: 0 <= k < |events| && Run(section, panel, events, gated).2[k].effect.RegenerateRequest? ==>
      (Run(section, panel, events, gated).2[k].effect.sectionId == section.id &&
       Run(section, panel, events, gated).2[k].effect.feedback.comment.Some? &&
       Run(section, panel, events, gated).2[k].effect.feedback.comment.value != "")
    decreases |events|
  {
    if events != [] {
      var (p, eff) := Step(section, panel, events[0], gated);
      var next := if eff.UpdateSection? then eff.section else section;
      RequestsCarryComment(next, p, events[1..], gated);
      var out := Run(section, panel, events, gated).2;
      assert out == [Emitted(eff, IsLocked(section))] + Run(next, p, events[1..], gated).2;
      forall k | 0 <= k < |events| && out[k].effect.RegenerateRequest?
        ensures out[k].effect.sectionId == section.id
        ensures out[k].effect.feedback.comment.Some? && out[k].effect.feedback.comment.value != ""
      {
        if k > 0 {
          assert out[k] == Run(next, p, events[1..], gated).2[k - 1];
        }
      }
    }
  }

  /** The corrected renderer: a section never asks for regeneration while it
      is locked, whatever the user does. */
  lemma {:induction false} GatedRunNeverRequestsWhileLocked(section: PageSection, panel: Panel, events: seq<UiEvent>)
    ensures forall k :: 0 <= k < |events| && Run(section, panel, events, true).2[k].effect.RegenerateRequest? ==>
      !Run(section, panel, events, true).2[k].whileLocked
    decreases |events|
  {
    if events != [] {
      var (p, eff) := Step(section, panel, events[0], true);
      var next := if eff.UpdateSection? then eff.section else section;
      GatedRunNeverRequestsWhileLocked(next, p, events[1..]);
      var out := Run(section, panel, events, true).2;
      assert out == [Emitted(eff, IsLocked(section))] + Run(next, p, events[1..], true).2;
      forall k | 0 <= k < |events| && out[k].effect.RegenerateRequest?
        ensures !out[k].whileLocked
      {
        if k > 0 {
          assert out[k] == Run(next, p, events[1..], true).2[k - 1];
        }
      }
    }
  }

  /** On an unlocked section, opening the panel, typing a comment and
      pressing Update sends that comment for the section, with high priority,
      and leaves the panel closed and cleared; either renderer does so. */
  lemma UnlockedSectionRequests(section: PageSection, c: string, gated: bool)
    requires !IsLocked(section) && c != ""
    ensures Run(section, InitialPanel, [ClickFeedbackButton, EditComment(c), ClickUpdate], gated).2[2] ==
      Emitted(RegenerateRequest(section.id, Feedback(section.id, CopyEdit, Some(c), High)), false)
    ensures Run(section, InitialPanel, [ClickFeedbackButton, EditComment(c), ClickUpdate], gated).1 == InitialPanel
  {
    var p1 := InitialPanel.(showFeedback := true);
    var p2 := p1.(comment := c);
    assert Step(section, InitialPanel, ClickFeedbackButton, gated) == (p1, NoEffect);
    assert Step(section, p1, EditComment(c), gated) == (p2, NoEffect);
    var fb := Feedback(section.id, CopyEdit, Some(c), High);
    assert Step(section, p2, ClickUpdate, gated) == (InitialPanel, RegenerateRequest(section.id, fb));
    var evs: seq<UiEvent> := [ClickFeedbackButton, EditComment(c), ClickUpdate];
    assert evs[1..] == [EditComment(c), ClickUpdate];
    assert evs[1..][1..] == [ClickUpdate];
    assert evs[1..][1..][1..] == [];
    var last := Run(section, p2, evs[1..][1..], gated);
    assert Run(section, InitialPanel, evs[1..][1..][1..], gated) == (section, InitialPanel, []);
    assert [Emitted(RegenerateRequest(section.id, fb), false)] + [] == [Emitted(RegenerateRequest(section.id, fb), false)];
    assert last == (section, InitialPanel, [Emitted(RegenerateRequest(section.id, fb), false)]);
    var mid := Run(section, p1, evs[1..], gated);
    assert mid == (section, InitialPanel, [Emitted(NoEffect, false)] + last.2);
    assert Run(section, InitialPanel, evs, gated) == (section, InitialPanel, [Emitted(NoEffect, false)] + mid.2);
  }

  /** The renderer as written: open the panel on an unlocked section, type a
      comment, lock the section (the button disappears, the panel stays),
      press Update; the request for the now-locked section goes out. */
  lemma LockedSectionStillRequests(section: PageSection, c: string)
    requires !IsLocked(section) && c != ""
    ensures Run(section, InitialPanel, [ClickFeedbackButton, EditComment(c), ClickLock, ClickUpdate], false).2[3] ==
      Emitted(RegenerateRequest(section.id, Feedback(section.id, CopyEdit, Some(c), High)), true)
  {
    var s1 := ToggleLock(section);
    var p1 := InitialPanel.(showFeedback := true);
    var p2 := p1.(comment := c);
    assert Step(section, InitialPanel, ClickFeedbackButton, false) == (p1, NoEffect);
    assert Step(section, p1, EditComment(c), false) == (p2, NoEffect);
    assert Step(section, p2, ClickLock, false) == (p2, UpdateSection(s1));
    assert IsLocked(s1);
    var fb := Feedback(section.id, CopyEdit, Some(c), High);
    assert Step(s1, p2, ClickUpdate, false) == (InitialPanel, RegenerateRequest(section.id, fb));
    var evs: seq<UiEvent> := [ClickFeedbackButton, EditComment(c), ClickLock, ClickUpdate];
    assert evs[1..] == [EditComment(c), ClickLock, ClickUpdate];
    assert evs[1..][1..] == [ClickLock, ClickUpdate];
    assert evs[1..][1..][1..] == [ClickUpdate];
    assert evs[1..][1..][1..][1..] == [];
    var last := Run(s1, p2, evs[1..][1..][1..], false);
    assert Run(s1, InitialPanel, evs[1..][1..][1..][1..], false) == (s1, InitialPanel, []);
    assert [Emitted(RegenerateRequest(section.id, fb), true)] + [] == [Emitted(RegenerateRequest(section.id, fb), true)];
    assert last == (s1, InitialPanel, [Emitted(RegenerateRequest(section.id, fb), true)]);
    var third := Run(section, p2, evs[1..][1..], false);
    assert third == (s1, InitialPanel, [Emitted(UpdateSection(s1), false)] + last.2);
    var mid := Run(section, p1, evs[1..], false);
    assert mid == (s1, InitialPanel, [Emitted(NoEffect, false)] + third.2);
    assert Run(section, InitialPanel, evs, false) == (s1, InitialPanel, [Emitted(NoEffect, false)] + mid.2);
  }
}

=== FILE: gemini_service.dfy ===
/** The two clients of the model: full-page generation and single-section
    regeneration. The network call is not modelled; each client starts from
    the reply text the model returned (absent when the reply had none). */
module GeminiService {
  import opened Wrappers
  import opened Json
  import opened Types
  import opened Normalizer

  /* ---------- request configuration ---------- */

  datatype ResponseSchema = BlueprintSchema | SectionSchema

  datatype RequestConfig = RequestConfig(
    responseMimeType: string,
    responseSchema: ResponseSchema,
    temperature: real,
    topP: real,
    maxOutputTokens: nat)

  const GenerationConfig := RequestConfig("application/json", BlueprintSchema, 0.0, 0.7, 4096)

  const RegenerationConfig := RequestConfig("application/json", SectionSchema, 0.0, 0.7, 2048)

  /** Both requests ask for JSON with zero temperature and the same nucleus
      setting; the full page gets the larger output budget. */
  lemma RequestPolicy()
    ensures GenerationConfig.temperature == 0.0 && RegenerationConfig.temperature == 0.0
    ensures GenerationConfig.topP == RegenerationConfig.topP
    ensures GenerationConfig.responseMimeType == RegenerationConfig.responseMimeType == "application/json"
    ensures GenerationConfig.maxOutputTokens > RegenerationConfig.maxOutputTokens
  {
  }

  /* ---------- the clients ---------- */

  /** `response.text || "{}"`: a missing or empty reply becomes an empty object. */
  function ReplyOrEmptyObject(reply: Option<string>): (t: string)
    ensures t != ""
    ensures reply.Some? && reply.value != "" ==> t == reply.value
    ensures reply.None? || reply.value == "" ==> t == "{}"
  {
    match reply
    case Some(s) => if s != "" then s else "{}"
    case None => "{}"
  }

  /** `generateLandingPage` after the model replied: the repaired parse of
      the reply, with no check of its shape. */
  function GenerateLandingPage(parse: string -> Option<Json>, reply: Option<string>): (r: Result<Json, ParseError>)
    ensures r.Failure? ==> r.error == InvalidJson
    ensures r.Success? ==> Truthy(r.value)
    ensures reply.Some? && reply.value != "" ==> r == CleanAndParse(parse, reply.value)
  {
    CleanAndParse(parse, ReplyOrEmptyObject(reply))
  }

  /** `{ ...parsed, id, isLocked: false }`: the properties of the parsed
      value with `id` and `isLocked` overwritten. */
  function ForceIdentity(id: string, parsed: Json): (obj: map<string, Json>)
    ensures "id" in obj && obj["id"] == JString(id)
    ensures "isLocked" in obj && obj["isLocked"] == JBool(false)
    ensures forall k :: k != "id" && k != "isLocked" ==> (k in obj <==> k in Spread(parsed))
    ensures forall k :: k in obj && k != "id" && k != "isLocked" ==> obj[k] == Spread(parsed)[k]
  {
    Spread(parsed)["id" := JString(id)]["isLocked" := JBool(false)]
  }

  /** `regenerateSection` after the model replied: the repaired parse with
      the caller's id and an unlocked flag forced onto it. The campaign
      `context` argument of `regenerateSection` is not used by this step. */
  function RegenerateSection(parse: string -> Option<Json>, current: PageSection, reply: Option<string>): (r: Result<Json, ParseError>)
    ensures r.Failure? ==> r.error == InvalidJson
    ensures r.Success? <==> CleanAndParse(parse, ReplyOrEmptyObject(reply)).Success?
    ensures r.Success? ==> (r.value.JObject?
      && "id" in r.value.fields && r.value.fields["id"] == JString(current.id)
      && "isLocked" in r.value.fields && r.value.fields["isLocked"] == JBool(false))
    ensures r.Success? ==> forall k :: k != "id" && k != "isLocked" ==>
      (k in r.value.fields <==> k in Spread(CleanAndParse(parse, ReplyOrEmptyObject(reply)).value))
    ensures r.Success? ==> forall k :: k in r.value.fields && k != "id" && k != "isLocked" ==>
      r.value.fields[k] == Spread(CleanAndParse(parse, ReplyOrEmptyObject(reply)).value)[k]
  {
    var parsed :- CleanAndParse(parse, ReplyOrEmptyObject(reply));
    Success(JObject(ForceIdentity(current.id, parsed)))
  }

  /* ---------- properties ---------- */

  /** Whatever the model echoes, a regenerated value read as a section has
      the caller's id and is unlocked. */
  lemma RegeneratedSectionIdentity(parse: string -> Option<Json>, current: PageSection, reply: Option<string>, s: PageSection)
    requires RegenerateSection(parse, current, reply).Success?
    requires SectionFromJson(RegenerateSection(parse, current, reply).value) == Some(s)
    ensures s.id == current.id
    ensures s.isLocked == Some(false) && !IsLocked(s)
  {
    var r := RegenerateSection(parse, current, reply);
    SectionIdentityFields(r.value.fields, s, current.id, false);
  }

  /** Forcing identity changes only `id` and `isLocked`: the type, layout
      and content of the model's section come through. */
  lemma ForcedSectionKeepsContent(id: string, parsed: Json, s: PageSection)
    requires SectionFromJson(JObject(Spread(parsed))) == Some(s)
    ensures SectionFromJson(JObject(ForceIdentity(id, parsed))) == Some(s.(id := id, isLocked := Some(false)))
  {
    var m := Spread(parsed);
    var f := ForceIdentity(id, parsed);
    assert f["type"] == m["type"] && f["layout"] == m["layout"] && f["content"] == m["content"];
  }

  /** Neither client can raise the empty-response error: an empty reply is
      parsed as "{}". When `JSON.parse("{}")` gives the empty object, an
      empty reply regenerates to an object holding only `id` and `isLocked`. */
  lemma EmptyReplyRegeneratesIdentityOnly(parse: string -> Option<Json>, current: PageSection)
    requires parse("{}") == Some(JObject(map[]))
    ensures GenerateLandingPage(parse, None) == Success(JObject(map[]))
    ensures GenerateLandingPage(parse, Some("")) == Success(JObject(map[]))
    ensures RegenerateSection(parse, current, Some("")) ==
      Success(JObject(map["id" := JString(current.id), "isLocked" := JBool(false)]))
    ensures RegenerateSection(parse, current, None) ==
      Success(JObject(map["id" := JString(current.id), "isLocked" := JBool(false)]))
  {
    var parsed := JObject(map[]);
    assert TryParse(parse, "{}") == parsed;
    assert ForceIdentity(current.id, parsed) == map["id" := JString(current.id), "isLocked" := JBool(false)];
  }

  /** No shape check follows the parse: a blueprint whose sections break the
      schema (say, one without a description) is returned as the model sent it. */
  lemma GenerationDoesNotValidate(parse: string -> Option<Json>, reply: string, b: LandingPageBlueprint)
    requires reply != ""
    requires parse(reply) == Some(BlueprintToJson(b))
    ensures GenerateLandingPage(parse, Some(reply)) == Success(BlueprintToJson(b))
    ensures BlueprintFromJson(GenerateLandingPage(parse, Some(reply)).value) == Some(b)
  {
    BlueprintRoundTrip(b);
  }

  /** A regenerated section without a description is accepted and reaches
      the caller with the caller's id, unlocked, and still without a
      description, although the section schema requires one. */
  lemma RegenerationAcceptsMissingDescription(parse: string -> Option<Json>, reply: string, current: PageSection, s: PageSection)
    requires reply != ""
    requires parse(reply) == Some(SectionToJson(s))
    requires s.content.description.None?
    ensures RegenerateSection(parse, current, Some(reply)).Success?
    ensures SectionFromJson(RegenerateSection(parse, current, Some(reply)).value) == Some(s.(id := current.id, isLocked := Some(false)))
    ensures !SchemaValidSection(s.(id := current.id, isLocked := Some(false)))
  {
    SectionRoundTrip(s);
    assert TryParse(parse, reply) == SectionToJson(s);
    ForcedSectionKeepsContent(current.id, SectionToJson(s), s);
  }
}

=== FILE: json.dfy ===
/** The values `JSON.parse` can return, and the two JavaScript operations the
    service applies to them: truthiness and object spread. */
module Json {

  datatype Json =
    | JNull
    | JBool(b: bool)
    | JNumber(n: real)
    | JString(s: string)
    | JArray(items: seq<Json>)
    | JObject(fields: map<string, Json>)

  /** JavaScript truthiness: `null`, `false`, `0` and `""` are falsy,
      every array and object is truthy. */
  predicate Truthy(v: Json) {
    match v
    case JNull => false
    case JBool(b) => b
    case JNumber(n) => n != 0.0
    case JString(s) => s != ""
    case JArray(_) => true
    case JObject(_) => true
  }

  function DigitChar(d: nat): char
    requires d < 10
  {
    "0123456789"[d]
  }

  /** The decimal property key JavaScript uses for array and string index `n`. */
  function NatToString(n: nat): string {
    if n < 10 then [DigitChar(n)] else NatToString(n / 10) + [DigitChar(n % 10)]
  }

  /** The own enumerable properties `0`, `1`, ... of an array-like value. */
  function IndexedFields(values: seq<Json>): map<string, Json> {
    if values == [] then map[]
    else IndexedFields(values[..|values| - 1])[NatToString(|values| - 1) := values[|values| - 1]]
  }

  /** The properties `{ ...v }` copies out of `v`: an object's own fields, an
      array's elements and a string's characters under their index keys, and
      nothing from `null`, booleans and numbers. */
  function Spread(v: Json): map<string, Json> {
    match v
    case JObject(fields) => fields
    case JArray(items) => IndexedFields(items)
    case JString(s) => IndexedFields(seq(|s|, i requires 0 <= i < |s| => JString([s[i]])))
    case _ => map[]
  }
}

=== FILE: normalizer.dfy ===
/** The response repair pipeline `cleanAndParseJSON`: the raw text of the
    model is tried as JSON directly, then with trailing commas removed, then
    inside the first fenced code block, then between the first `{` and the
    last `}`; the first truthy parse wins. `JSON.parse` itself is the
    parameter `parse`, which yields `None` where `JSON.parse` throws. */
module Normalizer {
  import opened Wrappers
  import opened Json
  import opened Text

  datatype ParseError = EmptyResponse | InvalidJson

  /* ---------- sanitize: str.replace(/,(\s*[}\]])/g, "$1") ---------- */

  /** From index `i` on, `s` holds zero or more whitespace characters and then `}` or `]`. */
  predicate ClosesAfterSpaces(s: string, i: nat)
    decreases |s| - i
  {
    i < |s| && (s[i] == '}' || s[i] == ']' || (IsJsSpace(s[i]) && ClosesAfterSpaces(s, i + 1)))
  }

  /** The comma at index `i` is followed by optional whitespace and a closing bracket. */
  predicate TrailingCommaAt(s: string, i: int) {
    0 <= i < |s| && s[i] == ',' && ClosesAfterSpaces(s, i + 1)
  }

  predicate HasTrailingComma(s: string) {
    exists i :: 0 <= i < |s| && TrailingCommaAt(s, i)
  }

  /** `Sanitize` applied to the suffix of `s` from index `i`; whether a comma
      is trailing is decided on the whole of `s`. */
  function SanitizeFrom(s: string, i: nat): string
    requires i <= |s|
    decreases |s| - i
  {
    if i == |s| then []
    else (if TrailingCommaAt(s, i) then [] else [s[i]]) + SanitizeFrom(s, i + 1)
  }

  /** `SanitizeFrom` only ever drops characters, and drops one exactly when
      a trailing comma lies ahead. */
  lemma {:induction false} SanitizeFromLength(s: string, i: nat)
    requires i <= |s|
    ensures |SanitizeFrom(s, i)| <= |s| - i
    ensures (exists k :: i <= k < |s| && TrailingCommaAt(s, k)) ==> |SanitizeFrom(s, i)| < |s| - i
    ensures (forall k :: i <= k < |s| ==> !TrailingCommaAt(s, k)) ==> SanitizeFrom(s, i) == s[i..]
    decreases |s| - i
  {
    if i < |s| {
      SanitizeFromLength(s, i + 1);
      assert s[i..] == [s[i]] + s[i + 1..];
    }
  }

  /** `SanitizeFrom` keeps every character other than a comma. */
  lemma {:induction false} SanitizeFromKeeps(s: string, i: nat)
    requires i <= |s|
    ensures forall c :: c != ',' ==> multiset(SanitizeFrom(s, i))[c] == multiset(s[i..])[c]
    decreases |s| - i
  {
    if i < |s| {
      SanitizeFromKeeps(s, i + 1);
      var drop := TrailingCommaAt(s, i);
      assert s[i..] == [s[i]] + s[i + 1..];
      assert SanitizeFrom(s, i) == (if drop then [] else [s[i]]) + SanitizeFrom(s, i + 1);
      KeepsStep(s[i], drop, s[i + 1..], SanitizeFrom(s, i + 1));
    }
  }

  /** One step of `SanitizeFromKeeps`: prepending a character, or dropping
      it when it is a comma, keeps the non-comma counts in step. */
  lemma KeepsStep(x: char, drop: bool, rest: string, kept: string)
    requires drop ==> x == ','
    requires forall c :: c != ',' ==> multiset(kept)[c] == multiset(rest)[c]
    ensures forall c :: c != ',' ==> multiset((if drop then [] else [x]) + kept)[c] == multiset([x] + rest)[c]
  {
    assert multiset([x] + rest) == multiset{x} + multiset(rest);
    assert multiset((if drop then [] else [x]) + kept) == (if drop then multiset{} else multiset{x}) + multiset(kept);
  }

  /** `SanitizeFrom` keeps the surviving characters in their order. */
  lemma {:induction false} SanitizeFromOrdered(s: string, i: nat)
    requires i <= |s|
    ensures IsSubsequence(SanitizeFrom(s, i), s[i..])
    decreases |s| - i
  {
    if i < |s| {
      SanitizeFromOrdered(s, i + 1);
      var rest := SanitizeFrom(s, i + 1);
      assert s[i..][1..] == s[i + 1..];
      if TrailingCommaAt(s, i) {
        assert SanitizeFrom(s, i) == rest;
      } else {
        var r := [s[i]] + rest;
        assert SanitizeFrom(s, i) == r;
        assert r[0] == s[i..][0] && r[1..] == rest;
      }
    }
  }

  /** Trailing-comma repair: deletes exactly the commas followed by optional
      whitespace and `}` or `]`, keeping every other character in order. */
  function Sanitize(s: string): (r: string)
    ensures |r| <= |s|
    ensures |r| < |s| <==> HasTrailingComma(s)
    ensures !HasTrailingComma(s) ==> r == s
    ensures forall c :: c != ',' ==> multiset(r)[c] == multiset(s)[c]
    ensures IsSubsequence(r, s)
  {
    SanitizeFromLength(s, 0);
    SanitizeFromKeeps(s, 0);
    SanitizeFromOrdered(s, 0);
    assert s[0..] == s;
    SanitizeFrom(s, 0)
  }

  /** The end index of a match of the group `\s*[}\]]` that starts at `j`.
      The greedy `\s*` takes every whitespace character; giving some back
      cannot help, since the next character would then be whitespace and not
      a bracket. */
  function MatchClosing(s: string, j: nat): (r: Option<nat>)
    requires j <= |s|
    ensures r.Some? <==> ClosesAfterSpaces(s, j)
    ensures r.Some? ==> j < r.value <= |s| && (s[r.value - 1] == '}' || s[r.value - 1] == ']')
    ensures r.Some? ==> forall k :: j <= k < r.value - 1 ==> IsJsSpace(s[k])
    decreases |s| - j
  {
    if j == |s| then None
    else if s[j] == '}' || s[j] == ']' then Some(j + 1)
    else if IsJsSpace(s[j]) then MatchClosing(s, j + 1)
    else None
  }

  /** The global replace as a regex engine performs it: scan from `i`; at a
      comma whose group matches, emit the group (`$1`) and resume after the
      match; otherwise emit the character and move on by one. */
  function RegexReplaceFrom(s: string, i: nat): string
    requires i <= |s|
    decreases |s| - i
  {
    if i == |s| then []
    else if s[i] == ',' && MatchClosing(s, i + 1).Some? then
      var e := MatchClosing(s, i + 1).value;
      s[i + 1..e] + RegexReplaceFrom(s, e)
    else [s[i]] + RegexReplaceFrom(s, i + 1)
  }

  /** A stretch without commas passes through `SanitizeFrom` untouched. */
  lemma {:induction false} SanitizeKeepsCommaFree(s: string, j: nat, e: nat)
    requires j <= e <= |s|
    requires forall k :: j <= k < e ==> s[k] != ','
    ensures SanitizeFrom(s, j) == s[j..e] + SanitizeFrom(s, e)
    decreases e - j
  {
    if j < e {
      assert !TrailingCommaAt(s, j);
      var tail := SanitizeFrom(s, e);
      assert SanitizeFrom(s, j) == [s[j]] + SanitizeFrom(s, j + 1);
      SanitizeKeepsCommaFree(s, j + 1, e);
      assert s[j..e] == [s[j]] + s[j + 1..e];
      assert [s[j]] + (s[j + 1..e] + tail) == ([s[j]] + s[j + 1..e]) + tail;
    }
  }

  /** The per-character definition of `Sanitize` agrees with the regex scan. */
  lemma {:induction false} SanitizeIsRegexReplace(s: string, i: nat)
    requires i <= |s|
    ensures RegexReplaceFrom(s, i) == SanitizeFrom(s, i)
    decreases |s| - i
  {
    if i < |s| {
      if s[i] == ',' && MatchClosing(s, i + 1).Some? {
        var e := MatchClosing(s, i + 1).value;
        SanitizeIsRegexReplace(s, e);
        ReplaceStepAtMatch(s, i, e);
      } else {
        SanitizeIsRegexReplace(s, i + 1);
        ReplaceStepElsewhere(s, i);
      }
    }
  }

  /** At a comma whose group matches up to `e`, both scans emit the group
      and continue from `e`. */
  lemma ReplaceStepAtMatch(s: string, i: nat, e: nat)
    requires i < |s| && s[i] == ',' && MatchClosing(s, i + 1) == Some(e)
    requires RegexReplaceFrom(s, e) == SanitizeFrom(s, e)
    ensures RegexReplaceFrom(s, i) == SanitizeFrom(s, i)
  {
    assert TrailingCommaAt(s, i);
    assert SanitizeFrom(s, i) == SanitizeFrom(s, i + 1);
    assert RegexReplaceFrom(s, i) == s[i + 1..e] + RegexReplaceFrom(s, e);
    SanitizeKeepsCommaFree(s, i + 1, e);
  }

  /** Anywhere else both scans emit the character and move on by one. */
  lemma ReplaceStepElsewhere(s: string, i: nat)
    requires i < |s| && !(s[i] == ',' && MatchClosing(s, i + 1).Some?)
    requires RegexReplaceFrom(s, i + 1) == SanitizeFrom(s, i + 1)
    ensures RegexReplaceFrom(s, i) == SanitizeFrom(s, i)
  {
    assert !TrailingCommaAt(s, i);
    assert SanitizeFrom(s, i) == [s[i]] + SanitizeFrom(s, i + 1);
    assert RegexReplaceFrom(s, i) == [s[i]] + RegexReplaceFrom(s, i + 1);
  }

  /** `sanitize` as `replace` computes it over the whole string. */
  lemma SanitizeMatchesReplace(s: string)
    ensures Sanitize(s) == RegexReplaceFrom(s, 0)
  {
    SanitizeIsRegexReplace(s, 0);
  }

  /** One pass does not remove every trailing comma: in ",,}" only the second
      comma is followed by a bracket. */
  lemma SanitizeNotIdempotent()
    ensures Sanitize(",,}") == ",}"
    ensures Sanitize(Sanitize(",,}")) == "}"
  {
    assert !TrailingCommaAt(",,}", 0);
    assert TrailingCommaAt(",,}", 1);
    assert !TrailingCommaAt(",,}", 2);
    assert TrailingCommaAt(",}", 0);
    assert !TrailingCommaAt(",}", 1);
  }

  /* ---------- the fenced-block fallback ---------- */

  /** Where the capture of the fence pattern begins for the opening marker at
      `p`: after the optional `json` tag, which the greedy `(?:json)?` takes
      whenever it is present. */
  function OpeningEnd(text: string, p: nat): (q: nat)
    requires FenceAt(text, p)
    ensures q == p + 3 || q == p + 7
    ensures p + 3 <= q <= |text|
  {
    if p + 7 <= |text| && text[p + 3..p + 7] == "json" then p + 7 else p + 3
  }

  /** The capture of /```(?:json)?\s*([\s\S]*?)\s*```/ in its first match.
      That match starts at the first marker `p` in the text. The lazy group,
      framed by greedy `\s*`, ends at the first marker `f` at or after the
      optional tag, and the whitespace it leaves out at both ends is exactly
      what `Trim` removes. When no marker follows `p`, no later start matches
      either, since it would need a second marker further right still. */
  function FencedBlock(text: string): (r: Option<string>)
    ensures r.Some? <==> exists p, f :: FenceAt(text, p) && FenceAt(text, f) && p + 3 <= f
    ensures r.Some? ==> IsTrimmed(r.value)
    ensures r.Some? ==> exists p, f ::
      FindFence(text, 0) == Some(p) && FindFence(text, OpeningEnd(text, p)) == Some(f) &&
      r.value == Trim(text[OpeningEnd(text, p)..f])
  {
    match FindFence(text, 0)
    case None => None
    case Some(p) =>
      var q := OpeningEnd(text, p);
      var close := FindFence(text, q);
      MarkersAfterOpening(text, p);
      match close
      case None => None
      case Some(f) => Some(Trim(text[q..f]))
  }

  /** Every pair of markers far enough apart to frame a block has its
      closing marker at or after the capture start of the first marker. */
  lemma MarkersAfterOpening(text: string, p: nat)
    requires FindFence(text, 0) == Some(p)
    ensures forall p', f :: FenceAt(text, p') && FenceAt(text, f) && p' + 3 <= f ==> OpeningEnd(text, p) <= f
  {
    forall p', f | FenceAt(text, p') && FenceAt(text, f) && p' + 3 <= f
      ensures OpeningEnd(text, p) <= f
    {
      assert p <= p';
      if OpeningEnd(text, p) == p + 7 {
        var tag := text[p + 3..p + 7];
        assert tag == "json";
        assert forall k :: p + 3 <= k < p + 7 ==> text[k] == tag[k - p - 3] != '`';
      }
    }
  }

  /** Already-valid JSON wrapped in a ```json fence, after some prose. */
  function FenceWrap(prose: string, body: string): string {
    prose + "```json\n" + body + "\n```"
  }

  /** `FindFence` finds a marker when none comes before it. */
  lemma FindFenceAt(s: string, from: nat, f: nat)
    requires from <= f && FenceAt(s, f)
    requires forall k :: from <= k < f ==> !FenceAt(s, k)
    ensures FindFence(s, from) == Some(f)
  {
  }

  /** The layout of a wrapped reply: prose, marker and tag, the body
      between newlines, marker. */
  lemma FenceWrapLayout(prose: string, body: string)
    ensures |FenceWrap(prose, body)| == |prose| + |body| + 12
    ensures FenceWrap(prose, body)[..|prose|] == prose
    ensures FenceWrap(prose, body)[|prose|..|prose| + 7] == "```json"
    ensures FenceWrap(prose, body)[|prose| + 7..|prose| + 9 + |body|] == "\n" + body + "\n"
    ensures FenceWrap(prose, body)[|prose| + 9 + |body|..] == "```"
  {
  }

  /** A body framed by newlines holds no marker, so the first marker after
      the opening newline is the one after the closing newline. */
  lemma ClosingMarkerAfterBody(w: string, start: nat, body: string)
    requires start + |body| + 5 == |w|
    requires w[start..start + |body| + 2] == "\n" + body + "\n"
    requires w[start + |body| + 2..] == "```"
    requires forall k :: !FenceAt(body, k)
    ensures FindFence(w, start) == Some(start + |body| + 2)
  {
    var n := |body|;
    var mid := "\n" + body + "\n";
    assert forall i :: 0 <= i < n + 2 ==> w[start + i] == mid[i];
    assert forall i :: 0 <= i < n ==> mid[1 + i] == body[i];
    forall k | start <= k < start + 2 + n
      ensures !FenceAt(w, k)
    {
      if start + 1 <= k && k + 3 <= start + 1 + n {
        assert !FenceAt(body, k - start - 1);
        assert w[k] == body[k - start - 1];
      } else if k == start {
        assert w[k] == mid[0];
      } else {
        assert w[start + 1 + n] == mid[n + 1];
      }
    }
    assert w[start + n + 2] == w[start + n + 2..][0];
    FindFenceAt(w, start, start + 2 + n);
  }

  /** A ```json marker with no backtick before it opens the first match. */
  lemma OpeningMarkerAt(w: string, p: nat)
    requires p + 7 <= |w|
    requires '`' !in w[..p]
    requires w[p..p + 7] == "```json"
    ensures FindFence(w, 0) == Some(p)
    ensures OpeningEnd(w, p) == p + 7
  {
    assert forall k :: 0 <= k < p ==> w[k] == w[..p][k];
    assert w[p] == '`' && w[p + 1] == '`' && w[p + 2] == '`';
    assert w[p + 3..p + 7] == "json";
    FindFenceAt(w, 0, p);
  }

  /** In a wrapped body the only markers are the two the wrapper adds. */
  lemma FenceWrapMarkers(prose: string, body: string)
    requires '`' !in prose
    requires forall k :: !FenceAt(body, k)
    ensures FindFence(FenceWrap(prose, body), 0) == Some(|prose|)
    ensures OpeningEnd(FenceWrap(prose, body), |prose|) == |prose| + 7
    ensures FindFence(FenceWrap(prose, body), |prose| + 7) == Some(|prose| + 9 + |body|)
  {
    FenceWrapLayout(prose, body);
    OpeningMarkerAt(FenceWrap(prose, body), |prose|);
    ClosingMarkerAfterBody(FenceWrap(prose, body), |prose| + 7, body);
  }

  /** The capture is taken after the first marker in the text, up to the
      first marker at or after the end of its optional tag. */
  lemma FencedBlockUsesFirstMarkers(text: string)
    requires FencedBlock(text).Some?
    ensures exists p, f ::
      FenceAt(text, p) && (forall k :: 0 <= k < p ==> !FenceAt(text, k)) &&
      OpeningEnd(text, p) <= f && FenceAt(text, f) &&
      (forall k :: OpeningEnd(text, p) <= k < f ==> !FenceAt(text, k)) &&
      FencedBlock(text).value == Trim(text[OpeningEnd(text, p)..f])
  {
    var p := FindFence(text, 0).value;
    var f := FindFence(text, OpeningEnd(text, p)).value;
    assert FencedBlock(text).value == Trim(text[OpeningEnd(text, p)..f]);
  }

  /** With the opening marker at `p` and the next marker at `f`, the capture
      is the trimmed text between the tag and `f`. */
  lemma FencedBlockBetween(text: string, p: nat, f: nat)
    requires FindFence(text, 0) == Some(p)
    requires FindFence(text, OpeningEnd(text, p)) == Some(f)
    ensures FencedBlock(text) == Some(Trim(text[OpeningEnd(text, p)..f]))
  {
  }

  /** The capture of a wrapped reply is the trimmed text between the tag and
      the closing marker. */
  lemma FenceWrapCapture(prose: string, body: string)
    requires '`' !in prose
    requires forall k :: !FenceAt(body, k)
    ensures FencedBlock(FenceWrap(prose, body)) == Some(Trim(FenceWrap(prose, body)[|prose| + 7..|prose| + 9 + |body|]))
  {
    FenceWrapMarkers(prose, body);
    FencedBlockBetween(FenceWrap(prose, body), |prose|, |prose| + 9 + |body|);
  }

  /** Trimming the newline-framed middle of a wrapped reply gives the body
      back when the body is already trimmed. */
  lemma TrimFramedBody(prose: string, body: string)
    requires IsTrimmed(body)
    ensures Trim(FenceWrap(prose, body)[|prose| + 7..|prose| + 9 + |body|]) == body
  {
    FenceWrapLayout(prose, body);
    TrimAroundTrimmed("\n", body, "\n");
  }

  /** The fence fallback gives back exactly the wrapped text, when that text
      has no whitespace at its ends and no marker of its own. */
  lemma FenceWrapRecoversBody(prose: string, body: string)
    requires '`' !in prose
    requires IsTrimmed(body)
    requires forall k :: !FenceAt(body, k)
    ensures FencedBlock(FenceWrap(prose, body)) == Some(body)
  {
    FenceWrapCapture(prose, body);
    TrimFramedBody(prose, body);
  }

  /* ---------- the brace fallback ---------- */

  /** `text.slice(text.indexOf("{"), text.lastIndexOf("}") + 1)` when both
      characters occur; empty when the last `}` comes before the first `{`. */
  function BraceSlice(text: string): (r: Option<string>)
    ensures r.Some? <==> '{' in text && '}' in text
    ensures r.Some? ==> exists i, j ::
      0 <= i < |text| && 0 <= j < |text| && text[i] == '{' && '{' !in text[..i] &&
      text[j] == '}' && '}' !in text[j + 1..] &&
      r.value == (if i <= j then text[i..j + 1] else [])
  {
    match (IndexOfChar(text, '{'), LastIndexOfChar(text, '}'))
    case (Some(start), Some(end)) => Some(if start <= end + 1 then text[start..end + 1] else [])
    case _ => None
  }

  /** An object set in prose with no `{` before it and no `}` after it is
      cut out exactly. */
  lemma BraceSliceRecoversObject(before: string, body: string, after: string)
    requires '{' !in before && '}' !in after
    requires |body| >= 2 && body[0] == '{' && body[|body| - 1] == '}'
    ensures BraceSlice(before + body + after) == Some(body)
  {
    var text := before + body + after;
    var i := |before|;
    var j := |before| + |body| - 1;
    assert text[..i] == before;
    assert text[i] == '{';
    assert text[j + 1..] == after;
    assert text[j] == '}';
    var first := IndexOfChar(text, '{').value;
    var last := LastIndexOfChar(text, '}').value;
    assert first == i;
    assert last == j;
    assert text[i..j + 1] == body;
  }

  /* ---------- cleanAndParseJSON ---------- */

  /** `tryParse`: the parsed value, or `null` where `JSON.parse` throws. */
  function TryParse(parse: string -> Option<Json>, s: string): Json {
    match parse(s)
    case Some(v) => v
    case None => JNull
  }

  /** `tryParse(s) || tryParse(sanitize(s))`, kept only when truthy. */
  function Attempt(parse: string -> Option<Json>, s: string): Option<Json> {
    var direct := TryParse(parse, s);
    if Truthy(direct) then Some(direct)
    else
      var repaired := TryParse(parse, Sanitize(s));
      if Truthy(repaired) then Some(repaired) else None
  }

  /** `Attempt` on a fallback candidate that may be missing. */
  function AttemptOn(parse: string -> Option<Json>, candidate: Option<string>): Option<Json> {
    match candidate
    case Some(c) => Attempt(parse, c)
    case None => None
  }

  /** The repair pipeline. Empty text fails before any parse; otherwise the
      full text, the fenced block and the brace slice are attempted in that
      order, each directly and then sanitized, and the first truthy value is
      the result. */
  function CleanAndParse(parse: string -> Option<Json>, text: string): (r: Result<Json, ParseError>)
    ensures r == Failure(EmptyResponse) <==> text == ""
    ensures r.Success? ==> Truthy(r.value)
    ensures text != "" && Truthy(TryParse(parse, text)) ==> r == Success(TryParse(parse, text))
    ensures text != "" && !Truthy(TryParse(parse, text)) && Truthy(TryParse(parse, Sanitize(text)))
      ==> r == Success(TryParse(parse, Sanitize(text)))
  {
    if text == "" then Failure(EmptyResponse)
    else
      var whole := Attempt(parse, text);
      if whole.Some? then Success(whole.value)
      else
        var fenced := AttemptOn(parse, FencedBlock(text));
        if fenced.Some? then Success(fenced.value)
        else
          var braced := AttemptOn(parse, BraceSlice(text));
          if braced.Some? then Success(braced.value)
          else Failure(InvalidJson)
  }

  /* ---------- reference: the first truthy candidate ---------- */

  /** The two strings tried for a candidate: as is, then repaired. */
  function Tries(candidate: Option<string>): seq<string> {
    match candidate
    case Some(c) => [c, Sanitize(c)]
    case None => []
  }

  /** Every string `cleanAndParseJSON` hands to `JSON.parse`, in order. */
  function Candidates(text: string): seq<string> {
    CandidatesOf(text, FencedBlock(text), BraceSlice(text))
  }

  function CandidatesOf(text: string, fence: Option<string>, brace: Option<string>): seq<string> {
    Tries(Some(text)) + Tries(fence) + Tries(brace)
  }

  /** The parse of the first candidate whose parse is truthy. */
  function FirstTruthy(parse: string -> Option<Json>, cs: seq<string>): (r: Option<Json>)
    ensures r.Some? ==> Truthy(r.value)
    ensures r.Some? ==> exists i :: (0 <= i < |cs| && TryParse(parse, cs[i]) == r.value
      && forall j :: 0 <= j < i ==> !Truthy(TryParse(parse, cs[j])))
    ensures r.None? <==> forall i :: 0 <= i < |cs| ==> !Truthy(TryParse(parse, cs[i]))
  {
    if cs == [] then None
    else if Truthy(TryParse(parse, cs[0])) then Some(TryParse(parse, cs[0]))
    else
      var r := FirstTruthy(parse, cs[1..]);
      assert forall i :: 1 <= i < |cs| ==> cs[i] == cs[1..][i - 1];
      assert r.Some? ==> exists i :: (1 <= i < |cs| && TryParse(parse, cs[i]) == r.value
        && forall j :: 0 <= j < i ==> !Truthy(TryParse(parse, cs[j])));
      r
  }

  lemma {:induction false} FirstTruthyAppend(parse: string -> Option<Json>, a: seq<string>, b: seq<string>)
    ensures FirstTruthy(parse, a + b) == if FirstTruthy(parse, a).Some? then FirstTruthy(parse, a) else FirstTruthy(parse, b)
    decreases |a|
  {
    if a != [] {
      assert (a + b)[0] == a[0];
      assert (a + b)[1..] == a[1..] + b;
      FirstTruthyAppend(parse, a[1..], b);
    } else {
      assert a + b == b;
    }
  }

  /** Trying one candidate as is and repaired is taking the first truthy
      parse of the two. */
  lemma FirstTruthyTries(parse: string -> Option<Json>, candidate: Option<string>)
    ensures FirstTruthy(parse, Tries(candidate)) == AttemptOn(parse, candidate)
  {
    if candidate.Some? {
      var c := candidate.value;
      assert [c, Sanitize(c)][1..] == [Sanitize(c)];
      assert [Sanitize(c)][1..] == [];
    }
  }

  /** The first truthy value over all candidates is the first of the three
      candidates' attempts that succeeds. */
  lemma FirstTruthyCandidates(parse: string -> Option<Json>, text: string, fence: Option<string>, brace: Option<string>)
    ensures FirstTruthy(parse, CandidatesOf(text, fence, brace)) ==
      if Attempt(parse, text).Some? then Attempt(parse, text)
      else if AttemptOn(parse, fence).Some? then AttemptOn(parse, fence)
      else AttemptOn(parse, brace)
  {
    var whole := Tries(Some(text));
    assert CandidatesOf(text, fence, brace) == whole + (Tries(fence) + Tries(brace));
    FirstTruthyAppend(parse, whole, Tries(fence) + Tries(brace));
    FirstTruthyAppend(parse, Tries(fence), Tries(brace));
    FirstTruthyTries(parse, Some(text));
    FirstTruthyTries(parse, fence);
    FirstTruthyTries(parse, brace);
  }

  /** `cleanAndParseJSON` on non-empty text returns the parse of the first
      candidate that parses to a truthy value, and raises "Invalid JSON
      returned by model" exactly when no candidate does. */
  lemma CleanAndParseIsFirstTruthy(parse: string -> Option<Json>, text: string)
    requires text != ""
    ensures CleanAndParse(parse, text) ==
      match FirstTruthy(parse, Candidates(text))
      case Some(v) => Success(v)
      case None => Failure(InvalidJson)
  {
    FirstTruthyCandidates(parse, text, FencedBlock(text), BraceSlice(text));
  }

  /** Wrapping JSON in a ```json fence, after a preface with no backtick,
      does not change what the pipeline returns, directly parsed or repaired,
      provided `JSON.parse` rejects the whole reply (as it does: neither
      prose nor a backtick starts a JSON value). */
  lemma FenceWrapParsesLikeBody(parse: string -> Option<Json>, prose: string, body: string)
    requires '`' !in prose
    requires body != "" && IsTrimmed(body)
    requires forall k :: !FenceAt(body, k)
    requires Attempt(parse, body).Some?
    requires !Truthy(TryParse(parse, FenceWrap(prose, body)))
    requires !Truthy(TryParse(parse, Sanitize(FenceWrap(prose, body))))
    ensures CleanAndParse(parse, FenceWrap(prose, body)) == CleanAndParse(parse, body)
    ensures CleanAndParse(parse, body) == Success(Attempt(parse, body).value)
  {
    var w := FenceWrap(prose, body);
    assert |w| == |prose| + |body| + 12;
    assert Attempt(parse, w).None?;
    FenceWrapRecoversBody(prose, body);
  }
}

=== FILE: text.dfy ===
/** String primitives of JavaScript that the response normalizer relies on:
    the `\s` character class, trimming, `indexOf`/`lastIndexOf` and `slice`.
    Strings are sequences of characters. */
module Text {
  import opened Wrappers

  /** The characters JavaScript's `\s` matches: the WhiteSpace and
      LineTerminator code points of ECMAScript. */
  predicate IsJsSpace(c: char) {
    || c == ' ' || c == '\t' || c == '\n' || c == '\r'
    || c == '\U{000B}' || c == '\U{000C}' || c == '\U{00A0}' || c == '\U{1680}'
    || ('\U{2000}' <= c <= '\U{200A}')
    || c == '\U{2028}' || c == '\U{2029}' || c == '\U{202F}' || c == '\U{205F}'
    || c == '\U{3000}' || c == '\U{FEFF}'
  }

  predicate AllSpaces(s: string) {
    forall k :: 0 <= k < |s| ==> IsJsSpace(s[k])
  }

  /** `s` starts and ends with a character other than whitespace (or is empty). */
  predicate IsTrimmed(s: string) {
    s == [] || (!IsJsSpace(s[0]) && !IsJsSpace(s[|s| - 1]))
  }

  /** `s` without its leading whitespace. */
  function TrimStart(s: string): (r: string)
    ensures |r| <= |s| && r == s[|s| - |r|..]
    ensures AllSpaces(s[..|s| - |r|])
    ensures r == [] || !IsJsSpace(r[0])
  {
    if s != [] && IsJsSpace(s[0]) then TrimStart(s[1..]) else s
  }

  /** `s` without its trailing whitespace. */
  function TrimEnd(s: string): (r: string)
    ensures |r| <= |s| && r == s[..|r|]
    ensures AllSpaces(s[|r|..])
    ensures r == [] || !IsJsSpace(r[|r| - 1])
  {
    if s != [] && IsJsSpace(s[|s| - 1]) then TrimEnd(s[..|s| - 1]) else s
  }

  /** `s` without whitespace at either end. */
  function Trim(s: string): (r: string)
    ensures IsTrimmed(r)
    ensures exists i, j :: 0 <= i <= j <= |s| && r == s[i..j] && AllSpaces(s[..i]) && AllSpaces(s[j..])
  {
    var t := TrimStart(s);
    var r := TrimEnd(t);
    TrimPieces(s, t, r);
    r
  }

  /** A suffix `t` of `s` after whitespace, and a prefix `r` of `t` before
      whitespace, make `r` the middle of `s` with whitespace around it. */
  lemma TrimPieces(s: string, t: string, r: string)
    requires |t| <= |s| && t == s[|s| - |t|..] && AllSpaces(s[..|s| - |t|])
    requires t == [] || !IsJsSpace(t[0])
    requires |r| <= |t| && r == t[..|r|] && AllSpaces(t[|r|..])
    requires r == [] || !IsJsSpace(r[|r| - 1])
    ensures IsTrimmed(r)
    ensures exists i, j :: 0 <= i <= j <= |s| && r == s[i..j] && AllSpaces(s[..i]) && AllSpaces(s[j..])
  {
    var i := |s| - |t|;
    var j := i + |r|;
    assert r != [] ==> r[0] == t[0];
    assert r == s[i..j];
    assert s[j..] == t[|r|..];
  }

  /** Leading whitespace is dropped by `TrimStart`. */
  lemma {:induction false} TrimStartSpacesPrefix(w: string, x: string)
    requires AllSpaces(w)
    requires x == [] || !IsJsSpace(x[0])
    ensures TrimStart(w + x) == x
    decreases |w|
  {
    if w == [] {
      assert w + x == x;
    } else {
      assert (w + x)[1..] == w[1..] + x;
      TrimStartSpacesPrefix(w[1..], x);
    }
  }

  /** Trailing whitespace is dropped by `TrimEnd`. */
  lemma {:induction false} TrimEndSpacesSuffix(x: string, w: string)
    requires AllSpaces(w)
    requires x == [] || !IsJsSpace(x[|x| - 1])
    ensures TrimEnd(x + w) == x
    decreases |w|
  {
    if w == [] {
      assert x + w == x;
    } else {
      assert (x + w)[..|x + w| - 1] == x + w[..|w| - 1];
      TrimEndSpacesSuffix(x, w[..|w| - 1]);
    }
  }

  /** Trimming whitespace around an already trimmed string gives that string back. */
  lemma TrimAroundTrimmed(w1: string, x: string, w2: string)
    requires AllSpaces(w1) && AllSpaces(w2) && IsTrimmed(x)
    ensures Trim(w1 + x + w2) == x
  {
    if x == [] {
      assert w1 + x + w2 == w1 + w2;
      assert AllSpaces(w1 + w2);
      TrimStartSpacesPrefix(w1 + w2, []);
      assert w1 + w2 + [] == w1 + w2;
    } else {
      assert w1 + x + w2 == w1 + (x + w2);
      TrimStartSpacesPrefix(w1, x + w2);
      TrimEndSpacesSuffix(x, w2);
    }
  }

  /** A triple-backtick marker starts at index `k` of `s`. */
  predicate FenceAt(s: string, k: int) {
    0 <= k && k + 3 <= |s| && s[k] == '`' && s[k + 1] == '`' && s[k + 2] == '`'
  }

  /** The first index where a triple-backtick marker starts. */
  function FirstFence(s: string): (r: Option<nat>)
    ensures r.Some? ==> FenceAt(s, r.value) && forall k :: 0 <= k < r.value ==> !FenceAt(s, k)
    ensures r.None? ==> forall k :: !FenceAt(s, k)
  {
    if |s| < 3 then None
    else if FenceAt(s, 0) then Some(0)
    else
      ShiftFence(s, 1);
      match FirstFence(s[1..])
      case None => None
      case Some(k) => Some(k + 1)
  }

  /** A marker in a suffix is a marker in the whole string, shifted by the cut. */
  lemma ShiftFence(s: string, from: nat)
    requires from <= |s|
    ensures forall j :: from <= j ==> (FenceAt(s, j) <==> FenceAt(s[from..], j - from))
  {
    forall j | from <= j
      ensures FenceAt(s, j) <==> FenceAt(s[from..], j - from)
    {
      if j + 3 <= |s| {
        assert s[from..][j - from] == s[j];
        assert s[from..][j - from + 1] == s[j + 1];
        assert s[from..][j - from + 2] == s[j + 2];
      }
    }
  }

  /** The first index at or after `from` where a triple-backtick marker starts. */
  function FindFence(s: string, from: nat): (r: Option<nat>)
    requires from <= |s|
    ensures r.Some? ==> from <= r.value && FenceAt(s, r.value)
    ensures r.Some? ==> forall k :: from <= k < r.value ==> !FenceAt(s, k)
    ensures r.None? ==> forall k :: from <= k ==> !FenceAt(s, k)
  {
    ShiftFence(s, from);
    match FirstFence(s[from..])
    case None => None
    case Some(k) => Some(from + k)
  }

  /** `s.indexOf(c)`, with `None` for -1. */
  function IndexOfChar(s: string, c: char): (r: Option<nat>)
    ensures r.Some? <==> c in s
    ensures r.Some? ==> r.value < |s| && s[r.value] == c && c !in s[..r.value]
  {
    if s == [] then None
    else if s[0] == c then Some(0)
    else match IndexOfChar(s[1..], c)
      case None => None
      case Some(k) => assert s[..k + 1] == [s[0]] + s[1..][..k]; Some(k + 1)
  }

  /** `s.lastIndexOf(c)`, with `None` for -1. */
  function LastIndexOfChar(s: string, c: char): (r: Option<nat>)
    ensures r.Some? <==> c in s
    ensures r.Some? ==> r.value < |s| && s[r.value] == c && c !in s[r.value + 1..]
  {
    if s == [] then None
    else if s[|s| - 1] == c then Some(|s| - 1)
    else
      var r := LastIndexOfChar(s[..|s| - 1], c);
      assert r.Some? ==> s[r.value + 1..] == s[..|s| - 1][r.value + 1..] + [s[|s| - 1]];
      assert r.None? ==> s == s[..|s| - 1] + [s[|s| - 1]];
      r
  }

  /** `a` is obtained from `b` by deleting characters, keeping the rest in order. */
  predicate IsSubsequence(a: string, b: string)
    decreases |b|
  {
    a == [] || (b != [] && ((a[0] == b[0] && IsSubsequence(a[1..], b[1..])) || IsSubsequence(a, b[1..])))
  }
}

=== FILE: types.dfy ===
/** The records and enumerations of the application, their JSON form, and
    the two readings of a parsed value: the TypeScript view (what the code
    assumes when it uses the value) and the response schema (what the model
    is asked to produce). */
module Types {
  import opened Wrappers
  import opened Json

  /* ---------- enumerations ---------- */

  datatype CampaignObjective = Purchase | Lead | Signup | Other

  datatype Layout = Centered | TwoColumn | Grid | FeatureLeft | FeatureRight

  datatype ContrastLevel = HighContrast | MediumContrast | LowContrast

  datatype Spacing = Compact | Generous

  datatype TrustEmphasis = SubtleTrust | HighTrust

  datatype FeedbackType = CopyEdit | UxIssue | Clarity | VariantRequest | Lock

  datatype Priority = Low | Medium | High

  function ObjectiveName(o: CampaignObjective): string {
    match o
    case Purchase => "purchase"
    case Lead => "lead"
    case Signup => "signup"
    case Other => "other"
  }

  function LayoutName(l: Layout): string {
    match l
    case Centered => "centered"
    case TwoColumn => "two-column"
    case Grid => "grid"
    case FeatureLeft => "feature-left"
    case FeatureRight => "feature-right"
  }

  function ContrastName(c: ContrastLevel): string {
    match c
    case HighContrast => "high"
    case MediumContrast => "medium"
    case LowContrast => "low"
  }

  function SpacingName(s: Spacing): string {
    match s
    case Compact => "compact"
    case Generous => "generous"
  }

  function TrustName(t: TrustEmphasis): string {
    match t
    case SubtleTrust => "subtle"
    case HighTrust => "high"
  }

  function FeedbackTypeName(f: FeedbackType): string {
    match f
    case CopyEdit => "copy_edit"
    case UxIssue => "ux_issue"
    case Clarity => "clarity"
    case VariantRequest => "variant_request"
    case Lock => "lock"
  }

  function PriorityName(p: Priority): string {
    match p
    case Low => "low"
    case Medium => "medium"
    case High => "high"
  }

  /** A layout string names one of the five layouts, and each layout has one name. */
  function ParseLayout(s: string): (r: Option<Layout>)
    ensures forall l :: r == Some(l) <==> s == LayoutName(l)
  {
    if s == "centered" then Some(Centered)
    else if s == "two-column" then Some(TwoColumn)
    else if s == "grid" then Some(Grid)
    else if s == "feature-left" then Some(FeatureLeft)
    else if s == "feature-right" then Some(FeatureRight)
    else None
  }

  /** A contrast string is one of high, medium and low. */
  function ParseContrast(s: string): (r: Option<ContrastLevel>)
    ensures forall c :: r == Some(c) <==> s == ContrastName(c)
  {
    if s == "high" then Some(HighContrast)
    else if s == "medium" then Some(MediumContrast)
    else if s == "low" then Some(LowContrast)
    else None
  }

  /** A spacing string is one of compact and generous. */
  function ParseSpacing(s: string): (r: Option<Spacing>)
    ensures forall v :: r == Some(v) <==> s == SpacingName(v)
  {
    if s == "compact" then Some(Compact)
    else if s == "generous" then Some(Generous)
    else None
  }

  /** A trust-emphasis string is one of subtle and high. */
  function ParseTrust(s: string): (r: Option<TrustEmphasis>)
    ensures forall t :: r == Some(t) <==> s == TrustName(t)
  {
    if s == "subtle" then Some(SubtleTrust)
    else if s == "high" then Some(HighTrust)
    else None
  }

  /** No two values of an enumeration share a name. */
  lemma EnumerationNamesDistinct()
    ensures forall a, b :: ObjectiveName(a) == ObjectiveName(b) ==> a == b
    ensures forall a, b :: LayoutName(a) == LayoutName(b) ==> a == b
    ensures forall a, b :: ContrastName(a) == ContrastName(b) ==> a == b
    ensures forall a, b :: SpacingName(a) == SpacingName(b) ==> a == b
    ensures forall a, b :: TrustName(a) == TrustName(b) ==> a == b
    ensures forall a, b :: FeedbackTypeName(a) == FeedbackTypeName(b) ==> a == b
    ensures forall a, b :: PriorityName(a) == PriorityName(b) ==> a == b
  {
  }

  /* ---------- records ---------- */

  datatype LandingPageInput = LandingPageInput(
    adPlatform: string,
    campaignObjective: CampaignObjective,
    adCopy: string,
    keywords: string,
    audienceAttributes: string,
    productDetails: string,
    brandConstraints: string)

  datatype ImageSpec = ImageSpec(purpose: string, description: string)

  /** `headline` is required; every other field may be absent. */
  datatype SectionContent = SectionContent(
    headline: string,
    description: Option<string>,
    bullets: Option<seq<string>>,
    cta: Option<string>,
    ribbon: Option<string>,
    image: Option<ImageSpec>)

  /** `kind` is the JSON field `type`; `isLocked` may be absent. */
  datatype PageSection = PageSection(
    id: string,
    kind: string,
    layout: Layout,
    content: SectionContent,
    isLocked: Option<bool>)

  datatype DesignHints = DesignHints(
    visualStyle: string,
    contrastLevel: ContrastLevel,
    spacing: Spacing,
    trustEmphasis: TrustEmphasis)

  datatype LandingPageBlueprint = LandingPageBlueprint(
    primaryIntent: string,
    designHints: DesignHints,
    sections: seq<PageSection>)

  datatype Feedback = Feedback(
    sectionId: string,
    feedbackType: FeedbackType,
    comment: Option<string>,
    priority: Priority)

  /** The campaign the form starts with. */
  const InitialInput := LandingPageInput(
    "Google Ads",
    Purchase,
    "Stop overpaying for blades. Get a close shave for $5.",
    "best razor for men, cheap razor blades, subscription shave",
    "Men 25-45, value-conscious, currently using drugstore brands.",
    "The Executive Handle. Weighted zinc body, 5-blade german steel cartridges. Starter set $5. 100% money back guarantee.",
    "Direct, masculine but polite, minimalist design, no slang.")

  /** An absent lock flag reads as unlocked: the truthiness of `isLocked`. */
  predicate IsLocked(s: PageSection) {
    s.isLocked == Some(true)
  }

  /* ---------- the response schema ---------- */

  /** What the section schema demands beyond the TypeScript type: a
      `description` in the content (the image fields are already mandatory). */
  predicate SchemaValidSection(s: PageSection) {
    s.content.description.Some?
  }

  predicate SchemaValidBlueprint(b: LandingPageBlueprint) {
    forall i :: 0 <= i < |b.sections| ==> SchemaValidSection(b.sections[i])
  }

  /* ---------- JSON form ---------- */

  function StringsToJson(xs: seq<string>): seq<Json> {
    seq(|xs|, i requires 0 <= i < |xs| => JString(xs[i]))
  }

  function ImageToJson(img: ImageSpec): Json {
    JObject(map["purpose" := JString(img.purpose), "description" := JString(img.description)])
  }

  function WithOptional(m: map<string, Json>, key: string, v: Option<Json>): map<string, Json> {
    match v
    case Some(j) => m[key := j]
    case None => m
  }

  function ContentToJson(c: SectionContent): Json {
    var m := map["headline" := JString(c.headline)];
    var m := WithOptional(m, "description", if c.description.Some? then Some(JString(c.description.value)) else None);
    var m := WithOptional(m, "bullets", if c.bullets.Some? then Some(JArray(StringsToJson(c.bullets.value))) else None);
    var m := WithOptional(m, "cta", if c.cta.Some? then Some(JString(c.cta.value)) else None);
    var m := WithOptional(m, "ribbon", if c.ribbon.Some? then Some(JString(c.ribbon.value)) else None);
    var m := WithOptional(m, "image", if c.image.Some? then Some(ImageToJson(c.image.value)) else None);
    JObject(m)
  }

  function SectionToJson(s: PageSection): Json {
    var m := map[
      "id" := JString(s.id),
      "type" := JString(s.kind),
      "layout" := JString(LayoutName(s.layout)),
      "content" := ContentToJson(s.content)];
    JObject(WithOptional(m, "isLocked", if s.isLocked.Some? then Some(JBool(s.isLocked.value)) else None))
  }

  function HintsToJson(h: DesignHints): Json {
    JObject(map[
      "visualStyle" := JString(h.visualStyle),
      "contrastLevel" := JString(ContrastName(h.contrastLevel)),
      "spacing" := JString(SpacingName(h.spacing)),
      "trustEmphasis" := JString(TrustName(h.trustEmphasis))])
  }

  function SectionsToJson(ss: seq<PageSection>): seq<Json> {
    seq(|ss|, i requires 0 <= i < |ss| => SectionToJson(ss[i]))
  }

  function BlueprintToJson(b: LandingPageBlueprint): Json {
    JObject(map[
      "primaryIntent" := JString(b.primaryIntent),
      "designHints" := HintsToJson(b.designHints),
      "sections" := JArray(SectionsToJson(b.sections))])
  }

  /* ---------- the TypeScript view of a parsed value ---------- */

  function StringAt(m: map<string, Json>, key: string): Option<string> {
    if key in m && m[key].JString? then Some(m[key].s) else None
  }

  /** An optional string field: absent reads as `None`, a string as
      `Some(Some(s))`; any other value does not fit the type. */
  function OptionalStringAt(m: map<string, Json>, key: string): Option<Option<string>> {
    if key !in m then Some(None)
    else if m[key].JString? then Some(Some(m[key].s))
    else None
  }

  function StringsFromJson(items: seq<Json>): (r: Option<seq<string>>)
    ensures r.Some? ==> |r.value| == |items| && forall i :: 0 <= i < |items| ==> items[i] == JString(r.value[i])
    ensures r.None? ==> exists i :: 0 <= i < |items| && !items[i].JString?
  {
    if items == [] then Some([])
    else if !items[0].JString? then None
    else
      var rest := StringsFromJson(items[1..]);
      assert forall i :: 1 <= i < |items| ==> items[i] == items[1..][i - 1];
      if rest.None? then None else Some([items[0].s] + rest.value)
  }

  function ImageFromJson(j: Json): Option<ImageSpec> {
    if !j.JObject? then None
    else
      var purpose :- StringAt(j.fields, "purpose");
      var description :- StringAt(j.fields, "description");
      Some(ImageSpec(purpose, description))
  }

  function OptionalBulletsAt(m: map<string, Json>): Option<Option<seq<string>>> {
    if "bullets" !in m then Some(None)
    else if !m["bullets"].JArray? then None
    else
      var xs :- StringsFromJson(m["bullets"].items);
      Some(Some(xs))
  }

  function OptionalImageAt(m: map<string, Json>): Option<Option<ImageSpec>> {
    if "image" !in m then Some(None)
    else
      var img :- ImageFromJson(m["image"]);
      Some(Some(img))
  }

  function ContentFromJson(j: Json): Option<SectionContent> {
    if !j.JObject? then None
    else
      var m := j.fields;
      var headline :- StringAt(m, "headline");
      var description :- OptionalStringAt(m, "description");
      var bullets :- OptionalBulletsAt(m);
      var cta :- OptionalStringAt(m, "cta");
      var ribbon :- OptionalStringAt(m, "ribbon");
      var image :- OptionalImageAt(m);
      Some(SectionContent(headline, description, bullets, cta, ribbon, image))
  }

  function OptionalBoolAt(m: map<string, Json>, key: string): Option<Option<bool>> {
    if key !in m then Some(None)
    else if m[key].JBool? then Some(Some(m[key].b))
    else None
  }

  /** Reads a parsed value as a `PageSection`: every field the TypeScript
      type requires must be there with the right kind of value, and extra
      fields are ignored. A missing `description` is accepted. */
  function SectionFromJson(j: Json): Option<PageSection> {
    if !j.JObject? then None
    else
      var m := j.fields;
      var id :- StringAt(m, "id");
      var kind :- StringAt(m, "type");
      var layoutName :- StringAt(m, "layout");
      var layout :- ParseLayout(layoutName);
      var content :- if "content" in m then ContentFromJson(m["content"]) else None;
      var isLocked :- OptionalBoolAt(m, "isLocked");
      Some(PageSection(id, kind, layout, content, isLocked))
  }

  /** The id and lock flag of a section read from an object are the
      object's `id` and `isLocked` entries. */
  lemma SectionIdentityFields(m: map<string, Json>, s: PageSection, id: string, locked: bool)
    requires SectionFromJson(JObject(m)) == Some(s)
    requires "id" in m && m["id"] == JString(id)
    requires "isLocked" in m && m["isLocked"] == JBool(locked)
    ensures s.id == id && s.isLocked == Some(locked)
  {
  }

  function HintsFromJson(j: Json): Option<DesignHints> {
    if !j.JObject? then None
    else
      var m := j.fields;
      var style :- StringAt(m, "visualStyle");
      var contrastName :- StringAt(m, "contrastLevel");
      var contrast :- ParseContrast(contrastName);
      var spacingName :- StringAt(m, "spacing");
      var spacing :- ParseSpacing(spacingName);
      var trustName :- StringAt(m, "trustEmphasis");
      var trust :- ParseTrust(trustName);
      Some(DesignHints(style, contrast, spacing, trust))
  }

  function SectionsFromJson(items: seq<Json>): (r: Option<seq<PageSection>>)
    ensures r.Some? ==> |r.value| == |items| && forall i :: 0 <= i < |items| ==> SectionFromJson(items[i]) == Some(r.value[i])
    ensures r.None? ==> exists i :: 0 <= i < |items| && SectionFromJson(items[i]).None?
  {
    if items == [] then Some([])
    else
      var first := SectionFromJson(items[0]);
      var rest := SectionsFromJson(items[1..]);
      assert forall i :: 1 <= i < |items| ==> items[i] == items[1..][i - 1];
      if first.None? || rest.None? then None else Some([first.value] + rest.value)
  }

  /** Reads a parsed value as a `LandingPageBlueprint`, in the same lenient way. */
  function BlueprintFromJson(j: Json): Option<LandingPageBlueprint> {
    if !j.JObject? then None
    else
      var m := j.fields;
      var intent :- StringAt(m, "primaryIntent");
      var hints :- if "designHints" in m then HintsFromJson(m["designHints"]) else None;
      var sections :- if "sections" in m && m["sections"].JArray? then SectionsFromJson(m["sections"].items) else None;
      Some(LandingPageBlueprint(intent, hints, sections))
  }

  /* ---------- round trips ---------- */

  lemma StringsRoundTrip(xs: seq<string>)
    ensures StringsFromJson(StringsToJson(xs)) == Some(xs)
  {
    var r := StringsFromJson(StringsToJson(xs));
    assert r.Some?;
    assert forall i :: 0 <= i < |xs| ==> JString(r.value[i]) == JString(xs[i]);
    assert r.value == xs;
  }

  /** The optional content fields come back from the JSON form as they went in. */
  lemma ContentOptionalFields(c: SectionContent)
    ensures OptionalStringAt(ContentToJson(c).fields, "description") == Some(c.description)
    ensures OptionalStringAt(ContentToJson(c).fields, "cta") == Some(c.cta)
    ensures OptionalStringAt(ContentToJson(c).fields, "ribbon") == Some(c.ribbon)
  {
  }

  lemma ContentNestedFields(c: SectionContent)
    ensures OptionalBulletsAt(ContentToJson(c).fields) == Some(c.bullets)
    ensures OptionalImageAt(ContentToJson(c).fields) == Some(c.image)
  {
    if c.bullets.Some? {
      StringsRoundTrip(c.bullets.value);
    }
  }

  lemma ContentRoundTrip(c: SectionContent)
    ensures ContentFromJson(ContentToJson(c)) == Some(c)
  {
    ContentOptionalFields(c);
    ContentNestedFields(c);
    assert StringAt(ContentToJson(c).fields, "headline") == Some(c.headline);
  }

  /** Reading back a section's JSON form gives the same section. */
  lemma SectionRoundTrip(s: PageSection)
    ensures SectionFromJson(SectionToJson(s)) == Some(s)
  {
    ContentRoundTrip(s.content);
  }

  lemma HintsRoundTrip(h: DesignHints)
    ensures HintsFromJson(HintsToJson(h)) == Some(h)
  {
  }

  lemma SectionsRoundTrip(ss: seq<PageSection>)
    ensures SectionsFromJson(SectionsToJson(ss)) == Some(ss)
  {
    var items := SectionsToJson(ss);
    forall i | 0 <= i < |items|
      ensures SectionFromJson(items[i]) == Some(ss[i])
    {
      SectionRoundTrip(ss[i]);
    }
    assert SectionsFromJson(items).Some?;
    assert SectionsFromJson(items).value == ss;
  }

  /** Reading back a blueprint's JSON form gives the same blueprint. */
  lemma BlueprintRoundTrip(b: LandingPageBlueprint)
    ensures BlueprintFromJson(BlueprintToJson(b)) == Some(b)
  {
    HintsRoundTrip(b.designHints);
    SectionsRoundTrip(b.sections);
  }

  /** The type and the schema part ways on `description`: a section without
      one has the TypeScript shape but breaks the schema. */
  lemma DescriptionOptionalInTypeOnly(s: PageSection)
    requires s.content.description.None?
    ensures SectionFromJson(SectionToJson(s)) == Some(s)
    ensures !SchemaValidSection(s)
  {
    SectionRoundTrip(s);
  }

  /** One section without a description makes a whole blueprint break the
      schema, while the blueprint still has its typed reading. */
  lemma BlueprintWithoutDescriptionBreaksSchema(b: LandingPageBlueprint, i: nat)
    requires i < |b.sections| && b.sections[i].content.description.None?
    ensures BlueprintFromJson(BlueprintToJson(b)) == Some(b)
    ensures !SchemaValidBlueprint(b)
  {
    BlueprintRoundTrip(b);
  }
}

=== FILE: wrappers.dfy ===
/** Failure-compatible Option and Result types used throughout the model. */
module Wrappers {

  /** An optional value; also stands for TypeScript's `T | undefined`. */
  datatype Option<+T> = None | Some(value: T) {

    predicate IsFailure() {
      None?
    }

    function PropagateFailure<U>(): Option<U>
      requires None?
    {
      None
    }

    function Extract(): T
      requires Some?
    {
      value
    }
  }

  /** The outcome of an operation that may throw: a value or the error it raised. */
  datatype Result<+T, +E> = Success(value: T) | Failure(error: E) {

    predicate IsFailure() {
      Failure?
    }

    function PropagateFailure<U>(): Result<U, E>
      requires Failure?
    {
      Failure(error)
    }

    function Extract(): T
      requires Success?
    {
      value
    }
  }
}
